=== FILE: README.md ===
# Truck Life: a verified model of the game's economy

Truck Life is a browser trucking-career game. The player buys a truck, accepts freight jobs from a pool, drives them and earns money and experience. Licence tiers unlock heavier jobs, and there are bank loans. This project models the game's economic and progression state machine in Dafny:

- the pure functions of `services/gameLogic.ts`: job generation, trip costs, the amortising-loan formula, loan construction and the catalogue lookups;
- the static tables of `constants.ts` and the records of `types.ts`;
- every command handler of `App.tsx`, each as a total function from one `GameState` to the next;
- the guard predicates and sums that live in the screens: licence centre, job board, dashboard, market and bank.

Modules and files:

| file | module | contents |
|---|---|---|
| `types.dfy` | `Options`, `Types` | records, enumerations, the string order on licence tiers, JavaScript truthiness |
| `seqs.dfy` | `Seqs` | `find` and `filter` |
| `constants.dfy` | `Constants` | cities, truck models, licence requirements, economic constants |
| `loan_math.dfy` | `LoanMath` | powers, the month-by-month balance, its closed form, the growth bound |
| `game_logic.dfy` | `GameLogic` | the functions of `services/gameLogic.ts` |
| `app.dfy` | `App` | the command handlers and the bounded log |
| `license_center.dfy`, `job_board.dfy`, `dashboard.dfy`, `market.dfy`, `bank.dfy` | one module each | what each screen computes and enables |
| `session.dfy` | `Session` | commands, runs from the initial state, and the invariant of reachable states |

Conventions:

- Money, xp and distances are `real`.
- Driving progress is a whole number of 0.05 steps: 0 to 20 stands for 0 to 1.
- A nullable id is `Option<string>`. `Truthy` models a JavaScript truth test (`null` and `""` are false); `.Some?` models a strict `!== null`.
- Licence comparisons are evaluated as the source does, on the tiers' string values (`Types.Below`, `Types.AtLeast`), and proved to follow declaration order.
- Every `Math.random()` draw, every fresh id and the clock are parameters. So is the trip distance, which the model takes as a number `d >= 0` with `d * d = 25 * (dx^2 + dy^2)` instead of computing a square root.
- The destination loop of `generateJob` becomes a finite sequence of draws. The model's generator returns `None` when none of the supplied draws leaves the origin.
- The loan formula returns `None` exactly where the source divides by zero, that is where `(1 + r)^n = 1`.
- A handler reads a snapshot of the state and also updates through `prev`. The model treats both as the same state and applies each handler as one sequential step. A log entry added after an update is applied to the updated state.

The central result is `Session.FinishNeverPays`. Accepting a job removes it from the pool (App.tsx:122), and `handleFinishTrip` looks for the active job in that same pool (App.tsx:137-138). So in every state a session can reach, finishing a trip takes the reset branch. The player's money is not credited, xp stays 0, the level stays 1 and no delivery is counted. Related facts, each proved:

- the dashboard always shows its placeholder job;
- no job-board button ever reads ACTIVE;
- the delivery message's skipping of the log cap can never occur.

## Model

| member | source | states |
|---|---|---|
| `Types.Rank` | types.ts:2-7 | each tier's position in declaration order B, C, D, E |
| `Types.Below` | types.ts:2-7 | `a < b` on the tiers' string values holds exactly when a comes before b in declaration order |
| `Types.AtLeast` | types.ts:2-7 | `a >= b` on the string values holds exactly when a is at or after b in declaration order |
| `Types.BelowIsStrictTotalOrder` | types.ts:2-7 | the string comparison of tiers is irreflexive, asymmetric, transitive and total, and B < C < D < E |
| `Seqs.Find` | services/gameLogic.ts:60-61 | `find` returns nothing exactly when no element matches, and otherwise the first matching element |
| `Seqs.Filter` | App.tsx:122 | `filter` returns only matching elements of the input, keeps every matching element, and returns the input unchanged when all match |
| `Seqs.FilterCounts` | App.tsx:122 | each matching element is kept exactly as often as it occurs, and every other element is dropped |
| `Seqs.FilterSingleton` | App.tsx:122 | a one-element sequence keeps its element exactly when it matches |
| `Seqs.FilterAppend` | App.tsx:122 | filtering a concatenation is the concatenation of the filtered parts, so the kept elements stay in input order |
| `Seqs.FilterRemovesOne` | App.tsx:122 | when exactly one element fails the test, filtering removes it and keeps the others in order |
| `Constants.CitiesDistinct` | constants.ts:4-13 | eight cities with non-empty names, pairwise distinct ids and pairwise distinct positions |
| `Constants.TruckModelsPerTier` | constants.ts:15-20 | one model per tier in tier order, with distinct ids and a positive base price that strictly increases |
| `Constants.RequirementsIncrease` | constants.ts:22-27 | minimum level and exam cost strictly increase from B to E, and B is free at level 1 |
| `LoanMath.BalanceClosedForm` | services/gameLogic.ts:42-45 | after k months at rate r, the balance times r equals P·r·(1+r)^k − payment·((1+r)^k − 1) |
| `LoanMath.GrowthBound` | services/gameLogic.ts:42-45 | (1+r)^n − 1 ≤ n·r·(1+r)^n for r ≥ 0, the bound behind "repaid ≥ principal" |
| `GameLogic.GetTruckModel` | services/gameLogic.ts:61 | the lookup succeeds exactly for a catalogue id and returns a catalogue model with that id |
| `GameLogic.GetCityName` | services/gameLogic.ts:60 | an unknown id maps to itself; otherwise the result is the id or the name of a city with that id |
| `GameLogic.CatalogueModelsResolve` | constants.ts:15-20 | every catalogue model id resolves to that model |
| `GameLogic.CatalogueCitiesResolve` | services/gameLogic.ts:60 | every catalogue city id resolves to that city's name |
| `GameLogic.Destination` | services/gameLogic.ts:7-10 | the resampling loop yields the first drawn city whose id differs from the origin's: every earlier draw hit the origin. It yields nothing exactly when every draw hit the origin |
| `GameLogic.DistancePositive` | services/gameLogic.ts:12 | the scaled distance between two different catalogue cities is positive |
| `GameLogic.CityPairApart` | constants.ts:4-13 | any two different catalogue cities are at least 5800 squared map units apart |
| `GameLogic.Round` | services/gameLogic.ts:18 | `Math.round` gives the integer within half a unit below or above, halves rounding up |
| `GameLogic.RoundMonotone` | services/gameLogic.ts:18 | rounding preserves order |
| `GameLogic.UrgencyMultiplier` | services/gameLogic.ts:17 | the multiplier is 1.5 exactly when the draw exceeds 0.7, and 1.0 otherwise |
| `GameLogic.Payout` | services/gameLogic.ts:16-18 | the payout is a whole number within 0.5 of distance·12·(1+0.05·level)·multiplier, and is non-negative for non-negative inputs |
| `GameLogic.PayoutFactorsNonNegative` | services/gameLogic.ts:18 | the unrounded payout is non-negative for non-negative distance, level and multiplier |
| `GameLogic.PayoutMonotone` | services/gameLogic.ts:18 | a longer trip never pays less at the same level and urgency |
| `GameLogic.GenerateJob` | services/gameLogic.ts:5-33 | a generated job has these properties: origin ≠ destination, and the destination is the city `Destination` picks from the draws; its distance is the scaled distance of its route and is positive; payout as stated for `Payout`; urgency high exactly when the draw exceeds 0.7, otherwise low (never medium); kind always common; weight the drawn offset plus 1000, so in [1000, 21000); cargo the drawn one of the six labels; required licence the drawn tier; deadline now + 2000·distance. The result is `None` exactly when every destination draw hit the origin |
| `GameLogic.CargoLabelsDistinct` | services/gameLogic.ts:22 | the six cargo labels are pairwise distinct, so each cargo draw gives a different label |
| `GameLogic.CalculateTripCosts` | services/gameLogic.ts:35-40 | fuel used is consumption/100·d, fuel cost is 1.65 per litre, maintenance is 0.45·d, and all are non-negative for non-negative inputs |
| `GameLogic.TripCostsNonNegative` | services/gameLogic.ts:36 | fuel used is non-negative for non-negative consumption and distance |
| `GameLogic.TripCostsLinear` | services/gameLogic.ts:35-40 | the costs of a trip of k·a + b are k times the costs of a plus the costs of b |
| `GameLogic.GrowthFactorCases` | services/gameLogic.ts:42-45 | (1+r)^n is 1 when the monthly rate or the term is 0, and above 1 for a positive rate and term |
| `GameLogic.CalculateLoanMonthlyPayment` | services/gameLogic.ts:42-45 | the payment is undefined exactly when the denominator (1+r)^n − 1 is 0, which covers a zero rate and a zero term; otherwise payment·((1+r)^n − 1) = P·r·(1+r)^n |
| `GameLogic.PaymentAmortises` | services/gameLogic.ts:42-45 | accruing the monthly rate and paying the payment each month for the whole term brings the principal to exactly 0 |
| `GameLogic.TotalRepaidCoversPrincipal` | services/gameLogic.ts:42-45 | for a non-negative principal, a positive rate and a term of at least a month, the payment is defined and payment·term ≥ principal |
| `GameLogic.CreateLoan` | services/gameLogic.ts:47-58 | a new loan has: principal = amount; monthly interest rate = annual rate/12; the term unchanged; paidMonths 0; remaining balance = payment·term, which amortises and is at least the principal at a positive rate |
| `App.InitialState` | App.tsx:18-44 | the starting profile: driver name "Driver 001", reputation 50, 15000 money, licence B, level 1, no xp, no truck, no job, no loans, a one-entry log, and the given job pool |
| `App.AddLog` | App.tsx:60-65 | the entry is prepended, older entries keep their order, the log is cut to 50, and nothing else changes |
| `App.PurchasePrice` | App.tsx:70 | a new truck costs its base price and a used one exactly 60 % of it; for a positive base price, the used price is the lower one |
| `App.Upfront` | App.tsx:72 | paying outright is due in full; for a positive price, financing is due as a positive part below the price, and nothing is due beyond the price |
| `App.TruckLoan` | App.tsx:89-94 | the financing loan is principal price − down payment at 12 % a year over 24 months, and owes at least its principal |
| `App.BuyTruck` | App.tsx:67-109 | an unknown model changes nothing. Money below the amount due changes only the log. A purchase that goes through: takes exactly the amount due (60 % of base for used, 10 % of that price when financed); appends one truck (condition 70/100, mileage 150000/0, fuel 100, owner player) and its id; keeps a truthy selected truck or selects the new one; appends the `TruckLoan` for the rest of the price exactly when financed, and otherwise leaves the loans alone; logs the purchase |
| `App.UsedStarterPurchase` | App.tsx:67-109 | buying a used vlk-lt1 with at least 27000 takes exactly 27000, adds a truck at condition 70 with mileage 150000 bought for 27000, and books no loan |
| `App.FinancedStarterPurchase` | App.tsx:67-109 | financing a new vlk-lt1 with at least 4500 takes exactly 4500, adds a truck at condition 100 with mileage 0, and books one 24-month loan of 40500 |
| `App.JobWithId` | App.tsx:112 | the lookup finds nothing exactly when no pool job has the id, and otherwise the first pool job with that id |
| `App.JobsWithoutId` | App.tsx:122 | the remaining pool holds every other job and none with the id |
| `App.JobsWithoutIdRemovesOne` | App.tsx:122 | with unique ids, accepting removes exactly the accepted job and keeps the others in order |
| `App.AcceptJob` | App.tsx:111-126 | an absent job, a licence below the requirement, or no truthy selected truck changes nothing. Otherwise the job becomes active (even over an already active one), leaves the pool, and is logged |
| `App.StartTrip` | App.tsx:128-132 | starts driving from progress 0 exactly when both the active job and the selected truck are truthy, and otherwise changes nothing |
| `App.Tick` | App.tsx:175-187 | while driving below full progress, one step is added; otherwise nothing changes; progress never passes 1 |
| `App.LevelFor` | App.tsx:153 | the level is ⌊xp/1000⌋ + 1: xp lies in [1000·(level−1), 1000·level), and the level is at least 1 for non-negative xp |
| `App.LevelMonotone` | App.tsx:153 | more xp never gives a lower level |
| `App.FinishedJob` | App.tsx:137-138 | the delivered job is the first pool job with the truthy active id, and there is none when no pool job has that id |
| `App.FinishTrip` | App.tsx:134-160 | without a delivered job only the truck stops. With one: the payout is credited; xp grows by 5 per km; the level is recomputed; the active job is cleared; deliveries grows by one while fines and accidents are untouched; the delivery message is prepended without the log cap |
| `App.UpgradeLicense` | App.tsx:162-173 | with at least 5000, exactly 5000 is charged and the licence becomes the target, whatever tier that is; with less, nothing changes |
| `App.TakeLoan` | App.tsx:219-224 | the amount is paid out and one loan at 8 % a year over the term is appended; it amortises, owes at least the amount, and is logged |
| `App.SelectTruck` | App.tsx:217 | only the selected truck id changes |
| `App.SelectTruckIdempotent` | App.tsx:217 | selecting twice is selecting once; reselecting the selected truck changes nothing |
| `LicenseCenter.IsOwned` | components/LicenseCenter.tsx:26 | a tier is owned exactly when it is at or below the current licence |
| `LicenseCenter.PrevOwned` | components/LicenseCenter.tsx:27 | the previous tier is owned exactly when the tier is at most one above the licence |
| `LicenseCenter.CanAfford` | components/LicenseCenter.tsx:28 | money that covers a tier's exam covers every lower tier's exam too; tier B's exam is covered by any non-negative money |
| `LicenseCenter.LevelMet` | components/LicenseCenter.tsx:29 | a level that meets a tier's minimum meets every lower tier's too; tier B needs level 1 |
| `LicenseCenter.ExamClickable` | components/LicenseCenter.tsx:27-29 | an exam button is rendered and enabled exactly for the tier right above the licence, with the money and the level its requirement asks for |
| `LicenseCenter.BasicAlwaysOwned` | components/LicenseCenter.tsx:26 | tier B is always owned, and tier i is owned exactly when i is at most the licence's rank |
| `LicenseCenter.AtMostOneExam` | components/LicenseCenter.tsx:72-75 | two clickable exams are the same one, the tier right after the licence, so no tier can be skipped |
| `LicenseCenter.ExamUpgradesOneTier` | components/LicenseCenter.tsx:60 | clicking a clickable exam raises the licence exactly one tier and charges the flat 5000; that equals the displayed cost for C and is below it for D and E |
| `JobBoard.IsRestricted` | components/JobBoard.tsx:37 | a job is restricted exactly when the licence is below its requirement |
| `JobBoard.AcceptEnabled` | components/JobBoard.tsx:73 | accept is enabled exactly when no job id is set and the job is not restricted |
| `JobBoard.ButtonLabel` | components/JobBoard.tsx:83 | ACTIVE exactly for the active job's id, LOCKED exactly for other restricted jobs, otherwise ACCEPT |
| `JobBoard.BadgeLit` | components/JobBoard.tsx:23 | a tier's badge is lit exactly when the licence is at or above it |
| `JobBoard.RestrictionMatchesAcceptGuard` | components/JobBoard.tsx:37 | a restricted job is always refused by the accept handler; an enabled job with a truthy selected truck is always accepted |
| `JobBoard.AcceptLabelOnDisabledButton` | components/JobBoard.tsx:73-83 | for any active id other than the job's and any licence that meets the job's requirement, the button reads ACCEPT while it is disabled |
| `Dashboard.CurrentTruckInstance` | components/Dashboard.tsx:14 | the truck found is the first fleet truck with the selected id; none is found when no id is selected or no truck has it |
| `Dashboard.CurrentTruckModel` | components/Dashboard.tsx:15 | a resolved model is the catalogue model of the selected truck, and the model resolves exactly when the truck does and its model id is in the catalogue |
| `Dashboard.ActiveJobView` | components/Dashboard.tsx:16-18 | a pool job with the active id is shown with its own cargo, destination, payout and distance. Otherwise a truthy id shows the placeholder (payout 0, distance 0), and no job shows nothing |
| `Dashboard.StartOffered` | components/Dashboard.tsx:42-84 | start is offered only when not driving, with a truthy active job id and a selected truck in the fleet, and never together with finish |
| `Dashboard.FinishOffered` | components/Dashboard.tsx:42-64 | finish is offered only while driving with a resolvable truck, and then a further tick changes nothing |
| `Dashboard.NoTruckNoControls` | components/Dashboard.tsx:20 | without a resolvable truck neither start nor finish is offered |
| `Dashboard.StartOfferedStarts` | components/Dashboard.tsx:75-84 | with a truthy truck id, the offered start button starts the trip, and finish is not offered right after |
| `Dashboard.TicksReachFull` | App.tsx:177-185 | n ticks while driving raise the progress by n steps, up to 20, and change nothing else |
| `Dashboard.FinishOfferedAfterTwentyTicks` | components/Dashboard.tsx:58-64 | after an offered start, finish is offered after 20 ticks and not after 19 |
| `Market.ButtonsShown` | components/Market.tsx:39-88 | the new and finance buttons show for all/new and the used button for all/used, in the card's order: buy new, finance, buy used |
| `Market.UsedDisplayPrice` | components/Market.tsx:38 | the used price shown is 65 % of the base price; for a positive base price it lies strictly between the used price charged and the new price |
| `Market.StyledAffordable` | components/Market.tsx:66-83 | the new and finance buttons look affordable exactly when the money covers what the purchase handler charges now; the used button looks affordable exactly when the money is at least 65 % of the base price, which is above the used price charged |
| `Market.Request` | components/Market.tsx:65-82 | each button requests its own model, used only from the used button and financed only from the finance button, never both |
| `Market.NewStylingMatchesHandler` | components/Market.tsx:66-73 | the new and finance buttons look affordable exactly when the handler lets the purchase through |
| `Market.UsedStylingIsStricter` | components/Market.tsx:38 | the displayed used price (65 %) is above the price charged (60 %), so a used truck that looks affordable can always be bought |
| `Market.UsedStylingGap` | components/Market.tsx:38-83 | for every catalogue model, a used purchase goes through while its button looks unaffordable exactly when the money is at least 60 % and below 65 % of the base price |
| `Market.UsedStylingMisleads` | components/Market.tsx:83 | with 27000, a used Lite T1 can be bought while its button looks unaffordable |
| `Market.StartingMoneyBuys` | constants.ts:29 | the starting 15000 pays the financed down payment of vlk-lt1 and vlk-md2 only, and buys no model outright, new or used |
| `Bank.SumBy` | components/Bank.tsx:12-13 | the left fold of the loans is non-negative when every term is |
| `Bank.SumByAppend` | components/Bank.tsx:12-13 | appending a loan adds its term to the fold |
| `Bank.TotalDebt` | components/Bank.tsx:12 | the total debt is 0 without loans and non-negative when every balance is |
| `Bank.MonthlyTotal` | components/Bank.tsx:13 | the monthly total is 0 without loans and non-negative when every payment is |
| `Bank.OffersIncrease` | components/Bank.tsx:77-81 | the offer table has three offers, each a positive amount over at least a month at a positive rate; a larger offer runs longer at a higher advertised rate |
| `Bank.DebtCoversPrincipal` | components/Bank.tsx:12 | when each loan owes at least its principal, the total debt is at least the total principal |
| `Bank.TakeLoanAddsDebt` | components/Bank.tsx:12-13 | taking a loan raises the total debt by payment·term (at least the amount) and the monthly total by the payment |
| `Bank.RepaidFraction` | components/Bank.tsx:54 | the bar exists exactly when payment·term ≠ 0, and its width times payment·term is payment·term − remaining |
| `Bank.FreshLoanNothingRepaid` | components/Bank.tsx:54 | a freshly created loan of a positive amount at a positive rate shows a bar of width 0 |
| `Bank.AcceptOffer` | components/Bank.tsx:77-88 | an offer pays out its amount and appends one loan with its amount and term at the handler's 8 %, keeping the earlier loans; only the first offer's advertised rate matches. Nothing else changes except the log, which records the loan |
| `Session.InitialInvariant` | App.tsx:18-44 | the initial state satisfies the session invariant |
| `Session.Step` | App.tsx:67-224 | one command: a bank offer outside the table changes nothing; a selection changes the current truck only when the fleet screen lists the truck, and in a reachable state those are exactly the fleet's trucks |
| `Session.FinishResets` | App.tsx:134-140 | under the invariant no job is delivered, and finishing only stops the truck |
| `Session.BuyPreserves` | App.tsx:67-109 | a purchase keeps the invariant |
| `Session.BoughtPreserves` | App.tsx:79-107 | a purchase that goes through keeps the invariant |
| `Session.BoughtFleet` | App.tsx:97-106 | after a purchase the inventory still lists exactly the fleet's ids, every truck is the player's with a catalogue model and a condition in 0–100, and the selected truck is in the fleet |
| `Session.BoughtLoans` | App.tsx:89-94 | after a purchase every loan still owes at least its non-negative principal and has nothing paid |
| `Session.AcceptPreserves` | App.tsx:111-126 | accepting keeps the invariant, in particular that the active job is not in the pool |
| `Session.BorrowPreserves` | App.tsx:219-224 | taking an offered loan keeps the invariant |
| `Session.SelectPreserves` | App.tsx:217 | selecting a listed truck keeps the invariant |
| `Session.StepPreserves` | App.tsx:67-224 | every command keeps the invariant |
| `Session.RunPreserves` | App.tsx:67-224 | every sequence of commands keeps the invariant |
| `Session.FinishNeverPays` | App.tsx:122-158 | in every reachable state, finishing only stops the truck; xp stays 0, the level 1 and deliveries 0 |
| `Session.ActiveLabelNeverShown` | components/JobBoard.tsx:83 | in a reachable state no job's button reads ACTIVE |
| `Session.DashboardShowsPlaceholder` | components/Dashboard.tsx:16-18 | in a reachable state a truthy active job is always shown as the placeholder |
| `Session.SelectedTruckResolves` | components/Dashboard.tsx:14-15 | in a reachable state a selected truck always resolves to a catalogue model |
| `Session.DebtAtLeastBorrowed` | components/Bank.tsx:12 | in a reachable state the total debt is at least the total borrowed |
| `Session.FinishBypassesLogCap` | App.tsx:157 | on a full log the reward branch would leave 51 entries |

The session invariant (`Session.Invariant`) says:

- progress is within [0, 1], as `types.ts:104` documents;
- money is non-negative;
- xp is 0, the level is 1 and deliveries are 0;
- the active job is not in the pool;
- the inventory lists exactly the fleet's ids;
- every truck is the player's, has a catalogue model and has a condition within 0–100, as `types.ts:38` documents;
- a selected truck is in the fleet;
- the log has at most 50 entries;
- every loan owes at least its non-negative principal and has nothing paid.

## Left out

- Rendering, styling, navigation (`setActiveTab`), haptics (`navigator.vibrate`) and the interval timer itself. The tick is a step function that the session applies as a command.
- React's state plumbing and the stale snapshot that `handleBuyTruck`, `handleAcceptJob`, `handleStartTrip`, `handleFinishTrip` and `handleLicenseUpgrade` read besides `prev` (App.tsx:73, 89, 112, 129, 138, 163). Each command is one sequential step in which the snapshot and `prev` coincide. From the screens, a finish follows the render after the accept, so the snapshot's pool also lacks the accepted job.
- `formatMoney` (an `Intl.NumberFormat` call): log entries are a datatype that carries the amounts and names instead of formatted text.
- `Math.random`, `Date.now` and the base-36 id strings: draws, the clock and fresh ids are parameters.
- `Math.sqrt`: the distance is a parameter that satisfies `d >= 0` and `d·d = 25·(dx² + dy²)`.
- IEEE-754 rounding and drift: money, xp and distance are exact reals. Progress is counted in twentieths; in doubles, twenty additions of 0.05 also reach 1 or more.
- App.InitialState: the job pool is any given sequence, not the ten level-1 `generateJob` results of the mount effect (App.tsx:55-58). The session results hold for every pool.
- GameLogic.GenerateJob: a finite sequence of destination draws stands for the unbounded resampling loop, which may never end. `None` marks draws that never left the origin.
- GameLogic.CalculateLoanMonthlyPayment: where the source divides by zero and yields `NaN` or `Infinity`, the model yields `None`.
- GameLogic.CreateLoan: requires a defined payment. A loan whose fields would be `NaN` or `Infinity` is not modelled. Both callers meet the requirement.
- App.TakeLoan: requires a term of at least one month, which every bank offer has. With a zero term the source divides by zero and books a loan whose payment is not a finite number.
- Bank.RepaidFraction: the division by zero the source renders as `NaN` or `Infinity` is `None`.
- Loan billing and repayment: the source has none, and nothing ever lowers `remainingBalance`.
- Companies: inert records in the initial state; nothing reads or changes them.
- The `Route` type (types.ts:16-21): nothing uses it.
- components/Sidebar.tsx, components/FleetManager.tsx and components/CompaniesInfo.tsx: display only. FleetManager's list of player-owned trucks appears as the set of ids `Session.Step` lets the player select.
- `Job.weight` display in tons, `distance.toFixed(0)` and the other formatted numbers: display only.

=== FILE: app.dfy ===
/**
 The command handlers of App.tsx, each one a total function from the game
 state before the command to the state after it. React's state plumbing
 is collapsed: the snapshot a handler reads and the `prev` its update
 receives are the same state, and the log entry a handler adds after its
 update is applied to the updated state.
 */
module App {
  import opened Options
  import opened Types
  import opened Constants
  import opened Seqs
  import opened LoanMath
  import opened GameLogic

  const LogCap: nat := 50
  /** The flat fee the licence handler charges, whatever the tier. */
  const LicenseFee: real := 5000.0
  const UsedPriceFactor: real := 0.6
  const DownPaymentFactor: real := 0.1
  const TruckLoanRate: real := 0.12
  const TruckLoanTermMonths: nat := 24
  const CashLoanRate: real := 0.08
  const XpPerLevel: real := 1000.0
  /** The xp factor written as a literal in the delivery handler. */
  const DeliveryXpPerKm: real := 5.0
  const PlayerOwner: string := "player"

  function Min(a: int, b: int): int
  {
    if a <= b then a else b
  }

  // ---------------------------------------------------------------------
  // Initial state
  // ---------------------------------------------------------------------

  const InitialCompanies: seq<Company> := [
    Company("trans-euro", "TransEuro Logistics", 80.0, 1000000.0, Balanced, []),
    Company("nordic-hauls", "Nordic Hauls", 95.0, 2500000.0, Conservative, []),
    Company("rapid-freight", "Rapid Freight", 40.0, 500000.0, Aggressive, [])
  ]

  /**
   The state after the mount effect has filled the pool with `jobs` (the
   source generates ten jobs at level 1); `now` is the clock reading.
   */
  function InitialState(now: real, jobs: seq<Job>): (s: GameState)
    ensures s.player.money == InitialPlayerMoney && s.player.license == B
    ensures s.player.level == 1 && s.player.xp == 0.0 && s.player.history == History(0, 0, 0)
    ensures s.player.currentTruckId == None && s.player.activeJobId == None
    ensures s.player.inventoryTruckIds == [] && s.player.loans == [] && s.trucks == []
    ensures s.availableJobs == jobs && !s.isDriving && s.drivingProgress == 0
    ensures s.gameLog == [Welcome]
    ensures s.player.name == "Driver 001" && s.player.reputation == 50.0
  {
    GameState(
      player := PlayerProfile(
        name := "Driver 001",
        level := 1,
        xp := 0.0,
        reputation := 50.0,
        money := InitialPlayerMoney,
        license := B,
        history := History(0, 0, 0),
        currentTruckId := None,
        activeJobId := None,
        inventoryTruckIds := [],
        loans := []),
      trucks := [],
      companies := InitialCompanies,
      availableJobs := jobs,
      currentTime := now,
      weather := Sunny,
      isDriving := false,
      drivingProgress := 0,
      gameLog := [Welcome])
  }

  // ---------------------------------------------------------------------
  // The log
  // ---------------------------------------------------------------------

  /** `after` is `before` with `e` prepended and then cut to the cap. */
  predicate Logged(before: seq<LogEntry>, after: seq<LogEntry>, e: LogEntry)
  {
    && |after| == Min(|before| + 1, LogCap)
    && after[0] == e
    && forall i | 1 <= i < |after| :: after[i] == before[i - 1]
  }

  /** `addLog`: prepend one entry and keep at most 50. */
  function AddLog(s: GameState, e: LogEntry): (r: GameState)
    ensures Logged(s.gameLog, r.gameLog, e)
    ensures |r.gameLog| <= LogCap
    ensures r == s.(gameLog := r.gameLog)
  {
    var log := [e] + s.gameLog;
    s.(gameLog := log[..Min(|log|, LogCap)])
  }

  // ---------------------------------------------------------------------
  // Buying a truck
  // ---------------------------------------------------------------------

  /** A used truck costs 60 % of the base price. */
  function PurchasePrice(m: TruckModel, isUsed: bool): (r: real)
    ensures !isUsed ==> r == m.basePrice
    ensures isUsed ==> r == m.basePrice * UsedPriceFactor
    ensures m.basePrice > 0.0 ==> 0.0 < r <= m.basePrice && (r < m.basePrice <==> isUsed)
  {
    if isUsed then m.basePrice * UsedPriceFactor else m.basePrice
  }

  /** The cash due now: a 10 % down payment when financed, else the whole price. */
  function Upfront(price: real, financed: bool): (r: real)
    ensures !financed ==> r == price
    ensures price > 0.0 ==> 0.0 < r <= price && (r < price <==> financed)
  {
    if financed then price * DownPaymentFactor else price
  }

  /** The truck a purchase creates. */
  function NewTruck(id: string, modelId: string, isUsed: bool, price: real): TruckInstance
  {
    TruckInstance(
      id := id,
      modelId := modelId,
      condition := if isUsed then 70.0 else 100.0,
      mileage := if isUsed then 150000.0 else 0.0,
      fuel := 100.0,
      ownerId := PlayerOwner,
      purchasePrice := price)
  }

  /** The loan that finances the rest of the price, at 12 % a year over 24 months. */
  function TruckLoan(loanId: string, price: real, upfront: real): (l: Loan)
    ensures l.principal == price - upfront && l.id == loanId
    ensures l.interestRate == TruckLoanRate / 12.0 && l.termMonths == TruckLoanTermMonths && l.paidMonths == 0
    ensures l.remainingBalance == l.monthlyPayment * TruckLoanTermMonths as real
    ensures price - upfront >= 0.0 ==> l.remainingBalance >= l.principal
  {
    GrowthFactorCases(TruckLoanRate, TruckLoanTermMonths);
    CreateLoan(loanId, price - upfront, TruckLoanRate, TruckLoanTermMonths)
  }

  /** The model lookup succeeded and the player has the cash due now. */
  predicate CanBuy(s: GameState, modelId: string, isUsed: bool, financed: bool)
  {
    && GetTruckModel(modelId).Some?
    && s.player.money >= Upfront(PurchasePrice(GetTruckModel(modelId).value, isUsed), financed)
  }

  /**
   `handleBuyTruck(modelId, isUsed, financed)`. `truckId` and `loanId`
   are the fresh ids the source draws at random.
   */
  function BuyTruck(s: GameState, modelId: string, isUsed: bool, financed: bool, truckId: string, loanId: string): (r: GameState)
    ensures GetTruckModel(modelId).None? ==> r == s
    ensures GetTruckModel(modelId).Some? && !CanBuy(s, modelId, isUsed, financed) ==>
      var up := Upfront(PurchasePrice(GetTruckModel(modelId).value, isUsed), financed);
      r == s.(gameLog := r.gameLog) && Logged(s.gameLog, r.gameLog, NotEnoughMoney(up))
    ensures CanBuy(s, modelId, isUsed, financed) ==>
      var m := GetTruckModel(modelId).value;
      var price := PurchasePrice(m, isUsed);
      var up := Upfront(price, financed);
      && r.player.money == s.player.money - up
      && |r.trucks| == |s.trucks| + 1 && r.trucks[..|s.trucks|] == s.trucks
      && r.trucks[|s.trucks|].id == truckId && r.trucks[|s.trucks|].modelId == modelId
      && r.trucks[|s.trucks|].condition == (if isUsed then 70.0 else 100.0)
      && r.trucks[|s.trucks|].mileage == (if isUsed then 150000.0 else 0.0)
      && r.trucks[|s.trucks|].fuel == 100.0 && r.trucks[|s.trucks|].ownerId == PlayerOwner
      && r.trucks[|s.trucks|].purchasePrice == price
      && r.player.inventoryTruckIds == s.player.inventoryTruckIds + [truckId]
      && r.player.currentTruckId == (if Truthy(s.player.currentTruckId) then s.player.currentTruckId else Some(truckId))
      && (!financed ==> r.player.loans == s.player.loans)
      && (financed ==> r.player.loans == s.player.loans + [TruckLoan(loanId, price, up)])
      && r.player == s.player.(money := r.player.money, inventoryTruckIds := r.player.inventoryTruckIds,
                               currentTruckId := r.player.currentTruckId, loans := r.player.loans)
      && r == s.(player := r.player, trucks := r.trucks, gameLog := r.gameLog)
      && Logged(s.gameLog, r.gameLog, if financed then Financed(m.brand, m.model) else Bought(m.brand, m.model))
  {
    match GetTruckModel(modelId)
    case None => s
    case Some(m) =>
      TruckModelsPerTier();
      var price := PurchasePrice(m, isUsed);
      var up := Upfront(price, financed);
      if s.player.money < up then AddLog(s, NotEnoughMoney(up))
      else
        var truck := NewTruck(truckId, modelId, isUsed, price);
        var loans := if financed then s.player.loans + [TruckLoan(loanId, price, up)] else s.player.loans;
        var bought := s.(
          player := s.player.(
            money := s.player.money - up,
            inventoryTruckIds := s.player.inventoryTruckIds + [truck.id],
            currentTruckId := if Truthy(s.player.currentTruckId) then s.player.currentTruckId else Some(truck.id),
            loans := loans),
          trucks := s.trucks + [truck]);
        AddLog(bought, if financed then Financed(m.brand, m.model) else Bought(m.brand, m.model))
  }

  /** A used Lite T1 costs 27000 and arrives at condition 70 with 150000 on the clock. */
  lemma UsedStarterPurchase(s: GameState, truckId: string, loanId: string)
    requires s.player.money >= 27000.0
    ensures var r := BuyTruck(s, "vlk-lt1", true, false, truckId, loanId);
      && r.player.money == s.player.money - 27000.0
      && |r.trucks| == |s.trucks| + 1
      && r.trucks[|s.trucks|].condition == 70.0 && r.trucks[|s.trucks|].mileage == 150000.0
      && r.trucks[|s.trucks|].purchasePrice == 27000.0
      && r.player.loans == s.player.loans
  {
    CatalogueModelsResolve();
  }

  /** Financing a new Lite T1 takes a 4500 down payment and books a loan of 40500. */
  lemma FinancedStarterPurchase(s: GameState, truckId: string, loanId: string)
    requires s.player.money >= 4500.0
    ensures var r := BuyTruck(s, "vlk-lt1", false, true, truckId, loanId);
      && r.player.money == s.player.money - 4500.0
      && |r.trucks| == |s.trucks| + 1
      && r.trucks[|s.trucks|].condition == 100.0 && r.trucks[|s.trucks|].mileage == 0.0
      && |r.player.loans| == |s.player.loans| + 1
      && r.player.loans[|s.player.loans|].principal == 40500.0
      && r.player.loans[|s.player.loans|].termMonths == 24
  {
    CatalogueModelsResolve();
  }

  // ---------------------------------------------------------------------
  // Jobs and trips
  // ---------------------------------------------------------------------

  /** `availableJobs.find(j => j.id === id)`. */
  function JobWithId(jobs: seq<Job>, id: string): (r: Option<Job>)
    ensures r.None? <==> forall i | 0 <= i < |jobs| :: jobs[i].id != id
    ensures r.Some? ==> r.value in jobs && r.value.id == id
    ensures r.Some? ==> exists k | 0 <= k < |jobs| ::
      jobs[k] == r.value && forall i | 0 <= i < k :: jobs[i].id != id
  {
    Find(jobs, (j: Job) => j.id == id)
  }

  /** `availableJobs.filter(j => j.id !== id)`. */
  function JobsWithoutId(jobs: seq<Job>, id: string): (r: seq<Job>)
    ensures forall i | 0 <= i < |r| :: r[i].id != id && r[i] in jobs
    ensures forall i | 0 <= i < |jobs| && jobs[i].id != id :: jobs[i] in r
  {
    Filter(jobs, (j: Job) => j.id != id)
  }

  /** With unique ids, removing the job at index `k` keeps every other job in order. */
  lemma JobsWithoutIdRemovesOne(jobs: seq<Job>, k: nat)
    requires k < |jobs|
    requires forall i | 0 <= i < |jobs| && i != k :: jobs[i].id != jobs[k].id
    ensures JobsWithoutId(jobs, jobs[k].id) == jobs[..k] + jobs[k + 1..]
  {
    FilterRemovesOne(jobs, (j: Job) => j.id != jobs[k].id, k);
  }

  /** The three reasons `handleAcceptJob` turns a job down. */
  predicate AcceptRejected(s: GameState, jobId: string)
  {
    || JobWithId(s.availableJobs, jobId).None?
    || Below(s.player.license, JobWithId(s.availableJobs, jobId).value.requiredLicense)
    || !Truthy(s.player.currentTruckId)
  }

  /**
   `handleAcceptJob(jobId)`. It does not look at `activeJobId`: a second
   job can be accepted over an active one.
   */
  function AcceptJob(s: GameState, jobId: string): (r: GameState)
    ensures AcceptRejected(s, jobId) ==> r == s
    ensures !AcceptRejected(s, jobId) ==>
      var job := JobWithId(s.availableJobs, jobId).value;
      && r.player == s.player.(activeJobId := Some(jobId))
      && r.availableJobs == JobsWithoutId(s.availableJobs, jobId)
      && (forall i | 0 <= i < |r.availableJobs| :: r.availableJobs[i].id != jobId)
      && r == s.(player := r.player, availableJobs := r.availableJobs, gameLog := r.gameLog)
      && Logged(s.gameLog, r.gameLog, Accepted(job.cargo, job.to))
  {
    if AcceptRejected(s, jobId) then s
    else
      var job := JobWithId(s.availableJobs, jobId).value;
      var accepted := s.(
        player := s.player.(activeJobId := Some(jobId)),
        availableJobs := JobsWithoutId(s.availableJobs, jobId));
      AddLog(accepted, Accepted(job.cargo, job.to))
  }

  /** `handleStartTrip`: needs an active job and a selected truck. */
  function StartTrip(s: GameState): (r: GameState)
    ensures !Truthy(s.player.activeJobId) || !Truthy(s.player.currentTruckId) ==> r == s
    ensures Truthy(s.player.activeJobId) && Truthy(s.player.currentTruckId) ==>
      r == s.(isDriving := true, drivingProgress := 0)
  {
    if !Truthy(s.player.activeJobId) || !Truthy(s.player.currentTruckId) then s
    else s.(isDriving := true, drivingProgress := 0)
  }

  /**
   One firing of the driving interval, which is armed only while the
   player is driving: below full progress it adds one 0.05 step, at full
   progress it changes nothing.
   */
  function Tick(s: GameState): (r: GameState)
    ensures !s.isDriving || s.drivingProgress >= ProgressSteps ==> r == s
    ensures s.isDriving && s.drivingProgress < ProgressSteps ==>
      r == s.(drivingProgress := s.drivingProgress + 1)
    ensures s.drivingProgress <= r.drivingProgress <= s.drivingProgress + 1
    ensures s.drivingProgress <= ProgressSteps ==> r.drivingProgress <= ProgressSteps
  {
    if !s.isDriving || s.drivingProgress >= ProgressSteps then s
    else s.(drivingProgress := s.drivingProgress + 1)
  }

  /** `Math.floor(xp / 1000) + 1`. */
  function LevelFor(xp: real): (level: int)
    ensures (level - 1) as real * XpPerLevel <= xp < level as real * XpPerLevel
    ensures xp >= 0.0 ==> level >= 1
  {
    (xp / XpPerLevel).Floor + 1
  }

  /** More xp never means a lower level. */
  lemma LevelMonotone(xp1: real, xp2: real)
    requires xp1 <= xp2
    ensures LevelFor(xp1) <= LevelFor(xp2)
  {
  }

  /** The job `handleFinishTrip` pays for: the active job, looked up in the pool. */
  function FinishedJob(s: GameState): (r: Option<Job>)
    ensures r.Some? ==>
      (Truthy(s.player.activeJobId) && r.value in s.availableJobs && r.value.id == s.player.activeJobId.value)
    ensures r.None? <==>
      (!Truthy(s.player.activeJobId) ||
       forall i | 0 <= i < |s.availableJobs| :: s.availableJobs[i].id != s.player.activeJobId.value)
    ensures r.Some? ==> exists k | 0 <= k < |s.availableJobs| ::
      s.availableJobs[k] == r.value && forall i | 0 <= i < k :: s.availableJobs[i].id != r.value.id
  {
    if Truthy(s.player.activeJobId) then JobWithId(s.availableJobs, s.player.activeJobId.value) else None
  }

  /**
   `handleFinishTrip`. It does not check the progress. When the active job
   is not in the pool it only stops the truck; otherwise it pays the payout,
   grants 5 xp per km, recomputes the level, clears the active job, counts
   the delivery and prepends the delivery message without the log cap.
   */
  function FinishTrip(s: GameState): (r: GameState)
    ensures FinishedJob(s).None? ==> r == s.(isDriving := false, drivingProgress := 0)
    ensures FinishedJob(s).Some? ==>
      var job := FinishedJob(s).value;
      && r.player.money == s.player.money + job.payout
      && r.player.xp == s.player.xp + job.distance * XpPerKm
      && r.player.level == LevelFor(r.player.xp)
      && r.player.activeJobId == None
      && r.player.history == s.player.history.(deliveries := s.player.history.deliveries + 1)
      && r.player == s.player.(money := r.player.money, xp := r.player.xp, level := r.player.level,
                               activeJobId := None, history := r.player.history)
      && r.gameLog == [DeliveryComplete(job.payout)] + s.gameLog
      && r == s.(player := r.player, isDriving := false, drivingProgress := 0, gameLog := r.gameLog)
  {
    match FinishedJob(s)
    case None => s.(isDriving := false, drivingProgress := 0)
    case Some(job) =>
      var xp := s.player.xp + job.distance * DeliveryXpPerKm;
      s.(
        isDriving := false,
        drivingProgress := 0,
        player := s.player.(
          money := s.player.money + job.payout,
          xp := xp,
          level := LevelFor(xp),
          activeJobId := None,
          history := s.player.history.(deliveries := s.player.history.deliveries + 1)),
        gameLog := [DeliveryComplete(job.payout)] + s.gameLog)
  }

  // ---------------------------------------------------------------------
  // Licence, bank and fleet
  // ---------------------------------------------------------------------

  /**
   `handleLicenseUpgrade(target)`: with at least 5000 it charges 5000 and
   sets the licence to `target`, whatever the current tier or the tier's
   listed cost and level; otherwise nothing changes.
   */
  function UpgradeLicense(s: GameState, target: LicenseCategory): (r: GameState)
    ensures s.player.money < LicenseFee ==> r == s
    ensures s.player.money >= LicenseFee ==>
      && r.player == s.player.(money := s.player.money - LicenseFee, license := target)
      && r == s.(player := r.player, gameLog := r.gameLog)
      && Logged(s.gameLog, r.gameLog, LicenseUpgraded(target))
  {
    if s.player.money >= LicenseFee then
      AddLog(s.(player := s.player.(money := s.player.money - LicenseFee, license := target)), LicenseUpgraded(target))
    else s
  }

  /**
   The bank's `onTakeLoan(amount, term)`: unconditionally pays out the
   amount and books an 8 % loan over `term` months. The source's formula
   divides by zero at term 0; every term the bank offers is positive.
   */
  function TakeLoan(s: GameState, amount: real, termMonths: nat, loanId: string): (r: GameState)
    requires termMonths >= 1
    ensures r.player.money == s.player.money + amount
    ensures |r.player.loans| == |s.player.loans| + 1 && r.player.loans[..|s.player.loans|] == s.player.loans
    ensures var l := r.player.loans[|s.player.loans|];
      && l.id == loanId && l.principal == amount && l.termMonths == termMonths && l.paidMonths == 0
      && l.interestRate == CashLoanRate / 12.0
      && l.remainingBalance == l.monthlyPayment * termMonths as real
      && (amount >= 0.0 ==> l.remainingBalance >= amount)
      && Balance(amount, l.interestRate, l.monthlyPayment, termMonths) == 0.0
    ensures r.player == s.player.(money := r.player.money, loans := r.player.loans)
    ensures r == s.(player := r.player, gameLog := r.gameLog)
    ensures Logged(s.gameLog, r.gameLog, LoanAccepted(amount))
  {
    GrowthFactorCases(CashLoanRate, termMonths);
    var loan := CreateLoan(loanId, amount, CashLoanRate, termMonths);
    AddLog(s.(player := s.player.(money := s.player.money + amount, loans := s.player.loans + [loan])), LoanAccepted(amount))
  }

  /** The fleet screen's `onSelect(id)`: only the selected truck changes. */
  function SelectTruck(s: GameState, id: string): (r: GameState)
    ensures r.player.currentTruckId == Some(id)
    ensures r == s.(player := s.player.(currentTruckId := Some(id)))
  {
    s.(player := s.player.(currentTruckId := Some(id)))
  }

  /** Selecting the selected truck again changes nothing. */
  lemma SelectTruckIdempotent(s: GameState, id: string)
    ensures SelectTruck(SelectTruck(s, id), id) == SelectTruck(s, id)
    ensures s.player.currentTruckId == Some(id) ==> SelectTruck(s, id) == s
  {
  }
}

=== FILE: bank.dfy ===
/**
 The bank screen (components/Bank.tsx): debt totals, the repayment bar
 of each loan, and the fixed table of cash-loan offers whose button
 calls the take-loan handler of `App`.
 */
module Bank {
  import opened Options
  import opened Types
  import opened LoanMath
  import opened GameLogic
  import opened App

  /** `loans.reduce((acc, loan) => acc + f(loan), 0)`, folding from the left. */
  function SumBy(loans: seq<Loan>, f: Loan -> real): (r: real)
    ensures (forall i | 0 <= i < |loans| :: f(loans[i]) >= 0.0) ==> r >= 0.0
    decreases |loans|
  {
    if |loans| == 0 then 0.0
    else
      var init := loans[..|loans| - 1];
      assert forall i | 0 <= i < |init| :: init[i] == loans[i];
      SumBy(init, f) + f(loans[|loans| - 1])
  }

  /** Appending a loan adds its term to the fold. */
  lemma SumByAppend(loans: seq<Loan>, l: Loan, f: Loan -> real)
    ensures SumBy(loans + [l], f) == SumBy(loans, f) + f(l)
  {
    assert (loans + [l])[..|loans|] == loans;
  }

  /** `totalDebt`: the remaining balances added up. */
  function TotalDebt(loans: seq<Loan>): (r: real)
    ensures (forall i | 0 <= i < |loans| :: loans[i].remainingBalance >= 0.0) ==> r >= 0.0
    ensures |loans| == 0 ==> r == 0.0
  {
    SumBy(loans, (l: Loan) => l.remainingBalance)
  }

  /** `monthlyTotal`: the monthly payments added up. */
  function MonthlyTotal(loans: seq<Loan>): (r: real)
    ensures (forall i | 0 <= i < |loans| :: loans[i].monthlyPayment >= 0.0) ==> r >= 0.0
    ensures |loans| == 0 ==> r == 0.0
  {
    SumBy(loans, (l: Loan) => l.monthlyPayment)
  }

  function PrincipalTotal(loans: seq<Loan>): real
  {
    SumBy(loans, (l: Loan) => l.principal)
  }

  /** When every loan still owes at least its principal, so does the total. */
  lemma {:induction false} DebtCoversPrincipal(loans: seq<Loan>)
    requires forall i | 0 <= i < |loans| :: loans[i].remainingBalance >= loans[i].principal
    ensures TotalDebt(loans) >= PrincipalTotal(loans)
    decreases |loans|
  {
    if |loans| > 0 {
      var init := loans[..|loans| - 1];
      assert forall i | 0 <= i < |init| :: init[i] == loans[i];
      DebtCoversPrincipal(init);
    }
  }

  /** Taking a loan adds its whole repayable sum to the debt and its payment to the monthly total. */
  lemma TakeLoanAddsDebt(s: GameState, amount: real, termMonths: nat, loanId: string)
    requires termMonths >= 1
    ensures var r := TakeLoan(s, amount, termMonths, loanId);
      var l := r.player.loans[|s.player.loans|];
      && TotalDebt(r.player.loans) == TotalDebt(s.player.loans) + l.monthlyPayment * termMonths as real
      && MonthlyTotal(r.player.loans) == MonthlyTotal(s.player.loans) + l.monthlyPayment
      && (amount >= 0.0 ==> TotalDebt(r.player.loans) >= TotalDebt(s.player.loans) + amount)
  {
    var r := TakeLoan(s, amount, termMonths, loanId);
    var l := r.player.loans[|s.player.loans|];
    assert r.player.loans == s.player.loans + [l];
    SumByAppend(s.player.loans, l, (l: Loan) => l.remainingBalance);
    SumByAppend(s.player.loans, l, (l: Loan) => l.monthlyPayment);
  }

  /**
   The width of the repayment bar, `1 - remaining / (payment * term)`;
   `None` where the source divides by zero.
   */
  function RepaidFraction(l: Loan): (r: Option<real>)
    ensures r.Some? <==> l.monthlyPayment * l.termMonths as real != 0.0
    ensures r.Some? ==>
      r.value * (l.monthlyPayment * l.termMonths as real) ==
      l.monthlyPayment * l.termMonths as real - l.remainingBalance
  {
    var whole := l.monthlyPayment * l.termMonths as real;
    if whole == 0.0 then None else Some(1.0 - l.remainingBalance / whole)
  }

  /** A freshly created loan of a positive amount at a positive rate shows nothing repaid. */
  lemma FreshLoanNothingRepaid(id: string, amount: real, annualRate: real, termMonths: nat)
    requires amount > 0.0 && annualRate > 0.0 && termMonths >= 1
    ensures CalculateLoanMonthlyPayment(amount, annualRate, termMonths).Some?
    ensures RepaidFraction(CreateLoan(id, amount, annualRate, termMonths)) == Some(0.0)
  {
    var l := CreateLoan(id, amount, annualRate, termMonths);
    var whole := l.monthlyPayment * l.termMonths as real;
    assert whole == l.remainingBalance > 0.0;
    assert RepaidFraction(l).Some?;
    assert RepaidFraction(l).value * whole == 0.0;
  }

  datatype LoanOffer = LoanOffer(amount: real, termMonths: nat, rate: real)

  const Offers: seq<LoanOffer> := [
    LoanOffer(50000.0, 12, 0.08),
    LoanOffer(100000.0, 24, 0.10),
    LoanOffer(250000.0, 48, 0.12)
  ]

  /** Three offers, each a positive amount over at least a month; a larger offer runs longer at a higher advertised rate. */
  lemma OffersIncrease()
    ensures |Offers| == 3
    ensures forall i | 0 <= i < |Offers| :: Offers[i].amount > 0.0 && Offers[i].termMonths >= 1 && Offers[i].rate > 0.0
    ensures forall i, j | 0 <= i < j < |Offers| ::
      Offers[i].amount < Offers[j].amount && Offers[i].termMonths < Offers[j].termMonths && Offers[i].rate < Offers[j].rate
  {
  }

  /**
   The "Accept Offer" button of offer `idx`: it forwards the amount and the
   term only, so every offer is booked at the handler's 8 %, which is the
   advertised rate of the first offer alone.
   */
  function AcceptOffer(s: GameState, idx: nat, loanId: string): (r: GameState)
    requires idx < |Offers|
    ensures r.player.money == s.player.money + Offers[idx].amount
    ensures |r.player.loans| == |s.player.loans| + 1
    ensures var l := r.player.loans[|s.player.loans|];
      && l.principal == Offers[idx].amount && l.termMonths == Offers[idx].termMonths
      && l.interestRate == CashLoanRate / 12.0
      && (l.interestRate == Offers[idx].rate / 12.0 <==> idx == 0)
      && l.remainingBalance >= l.principal > 0.0
    ensures r.player.loans[..|s.player.loans|] == s.player.loans
    ensures r.player == s.player.(money := r.player.money, loans := r.player.loans)
    ensures r == s.(player := r.player, gameLog := r.gameLog)
    ensures Logged(s.gameLog, r.gameLog, LoanAccepted(Offers[idx].amount))
  {
    TakeLoan(s, Offers[idx].amount, Offers[idx].termMonths, loanId)
  }
}

=== FILE: constants.dfy ===
/** The static world tables and economic constants (constants.ts). */
module Constants {
  import opened Types

  const Cities: seq<City> := [
    City("berlin", "Berlin", 200.0, 150.0),
    City("paris", "Paris", 50.0, 300.0),
    City("london", "London", 30.0, 200.0),
    City("rome", "Rome", 300.0, 500.0),
    City("madrid", "Madrid", 20.0, 550.0),
    City("warsaw", "Warsaw", 350.0, 120.0),
    City("prague", "Prague", 250.0, 250.0),
    City("vienna", "Vienna", 280.0, 320.0)
  ]

  const TruckModels: seq<TruckModel> := [
    TruckModel("vlk-lt1", "Volker", "Lite T1", 2022, 280, 18.0, 5000, B, 45000.0),
    TruckModel("vlk-md2", "Volker", "Medium M2", 2021, 420, 25.0, 12000, C, 95000.0),
    TruckModel("vlk-hv3", "Volker", "Heavy H3", 2023, 580, 32.0, 25000, D, 180000.0),
    TruckModel("sc-prime", "Scandia", "Prime S", 2024, 730, 38.0, 40000, E, 260000.0)
  ]

  datatype LicenseRequirement = LicenseRequirement(minLevel: int, cost: real)

  /** `LICENSE_REQUIREMENTS`: the level and exam cost of each tier. */
  function Requirement(c: LicenseCategory): LicenseRequirement
  {
    match c
    case B => LicenseRequirement(1, 0.0)
    case C => LicenseRequirement(5, 5000.0)
    case D => LicenseRequirement(12, 15000.0)
    case E => LicenseRequirement(25, 40000.0)
  }

  const InitialPlayerMoney: real := 15000.0
  const XpPerKm: real := 5.0
  const FuelPricePerL: real := 1.65

  /** The eight cities have pairwise distinct ids and pairwise distinct positions. */
  lemma CitiesDistinct()
    ensures |Cities| == 8
    ensures forall i | 0 <= i < |Cities| :: |Cities[i].name| > 0
    ensures forall i, j | 0 <= i < j < |Cities| :: Cities[i].id != Cities[j].id
    ensures forall i, j | 0 <= i < j < |Cities| ::
      Cities[i].x != Cities[j].x || Cities[i].y != Cities[j].y
  {
  }

  /** One model per tier, in tier order, with strictly increasing base price and distinct ids. */
  lemma TruckModelsPerTier()
    ensures |TruckModels| == |Categories|
    ensures forall i | 0 <= i < |TruckModels| :: TruckModels[i].category == Categories[i]
    ensures forall i, j | 0 <= i < j < |TruckModels| ::
      TruckModels[i].basePrice < TruckModels[j].basePrice && TruckModels[i].id != TruckModels[j].id
    ensures forall i | 0 <= i < |TruckModels| :: TruckModels[i].basePrice > 0.0
  {
  }

  /** Minimum level and exam cost both strictly increase from B to E; B is free at level 1. */
  lemma RequirementsIncrease()
    ensures Requirement(B) == LicenseRequirement(1, 0.0)
    ensures forall i, j | 0 <= i < j < |Categories| ::
      Requirement(Categories[i]).minLevel < Requirement(Categories[j]).minLevel &&
      Requirement(Categories[i]).cost < Requirement(Categories[j]).cost
  {
  }
}

=== FILE: dashboard.dfy ===
/**
 What the dashboard (components/Dashboard.tsx) resolves and offers: the
 current truck and its model, the active job with its placeholder, and
 when the start and finish buttons are rendered.
 */
module Dashboard {
  import opened Options
  import opened Types
  import opened Seqs
  import opened GameLogic
  import opened App

  /** `trucks.find(t => t.id === player.currentTruckId)`; a null id matches no truck. */
  function CurrentTruckInstance(s: GameState): (r: Option<TruckInstance>)
    ensures r.Some? ==> s.player.currentTruckId == Some(r.value.id) && r.value in s.trucks
    ensures r.None? <==>
      (s.player.currentTruckId.None? ||
       forall i | 0 <= i < |s.trucks| :: s.trucks[i].id != s.player.currentTruckId.value)
    ensures r.Some? ==> exists k | 0 <= k < |s.trucks| ::
      s.trucks[k] == r.value && forall i | 0 <= i < k :: s.trucks[i].id != r.value.id
  {
    match s.player.currentTruckId
    case None => None
    case Some(id) => Find(s.trucks, (t: TruckInstance) => t.id == id)
  }

  /** The catalogue model of the current truck, when both resolve. */
  function CurrentTruckModel(s: GameState): (r: Option<TruckModel>)
    ensures r.Some? ==>
      (CurrentTruckInstance(s).Some? && r.value in Constants.TruckModels &&
       r.value.id == CurrentTruckInstance(s).value.modelId)
    ensures r.None? <==>
      (CurrentTruckInstance(s).None? || GetTruckModel(CurrentTruckInstance(s).value.modelId).None?)
  {
    match CurrentTruckInstance(s)
    case None => None
    case Some(t) => GetTruckModel(t.modelId)
  }

  /** The fields of the active job the dashboard shows. */
  datatype JobView = JobView(cargo: string, to: string, payout: real, distance: real)

  const Placeholder: JobView := JobView("Current Cargo", "Destination", 0.0, 0.0)

  /**
   The active job as the dashboard sees it: the pool's job with the
   active id, else a placeholder with payout 0 and distance 0 when the
   active id is truthy, else nothing.
   */
  function ActiveJobView(s: GameState): (r: Option<JobView>)
    ensures r.None? <==>
      (!Truthy(s.player.activeJobId) &&
       (s.player.activeJobId.None? || JobWithId(s.availableJobs, s.player.activeJobId.value).None?))
    ensures r.Some? && r.value != Placeholder ==>
      exists i | 0 <= i < |s.availableJobs| :: Some(s.availableJobs[i].id) == s.player.activeJobId
    ensures Truthy(s.player.activeJobId) && JobWithId(s.availableJobs, s.player.activeJobId.value).None? ==>
      r == Some(Placeholder)
    ensures s.player.activeJobId.Some? && JobWithId(s.availableJobs, s.player.activeJobId.value).Some? ==>
      var j := JobWithId(s.availableJobs, s.player.activeJobId.value).value;
      r == Some(JobView(j.cargo, j.to, j.payout, j.distance))
  {
    var found := if s.player.activeJobId.Some? then JobWithId(s.availableJobs, s.player.activeJobId.value) else None;
    match found
    case Some(j) => Some(JobView(j.cargo, j.to, j.payout, j.distance))
    case None => if Truthy(s.player.activeJobId) then Some(Placeholder) else None
  }

  /** "Start Ignition" is rendered: a resolvable truck, not driving, and a truthy active id. */
  predicate StartOffered(s: GameState)
    ensures StartOffered(s) ==> !FinishOffered(s)
    ensures StartOffered(s) ==> !s.isDriving && Truthy(s.player.activeJobId) && CurrentTruckInstance(s).Some?
  {
    CurrentTruckModel(s).Some? && !s.isDriving && Truthy(s.player.activeJobId)
  }

  /** "Confirm Delivery" is rendered: a resolvable truck, driving, and full progress. */
  predicate FinishOffered(s: GameState)
    ensures FinishOffered(s) ==> s.isDriving && CurrentTruckInstance(s).Some?
    ensures FinishOffered(s) && s.drivingProgress <= ProgressSteps ==> Tick(s) == s
  {
    CurrentTruckModel(s).Some? && s.isDriving && s.drivingProgress >= ProgressSteps
  }

  /** Without a resolvable truck neither button is offered. */
  lemma NoTruckNoControls(s: GameState)
    requires CurrentTruckModel(s).None?
    ensures !StartOffered(s) && !FinishOffered(s)
  {
  }

  /** With a truthy truck id, pressing an offered start button starts the trip. */
  lemma StartOfferedStarts(s: GameState)
    requires StartOffered(s) && Truthy(s.player.currentTruckId)
    ensures StartTrip(s) == s.(isDriving := true, drivingProgress := 0)
    ensures !FinishOffered(StartTrip(s))
  {
  }

  /**
   Twenty ticks after a start bring the finish button up: progress climbs
   one step per tick and stops at twenty.
   */
  lemma {:induction false} TicksReachFull(s: GameState, n: nat)
    requires s.isDriving && s.drivingProgress <= ProgressSteps
    ensures Ticks(s, n).drivingProgress == (if s.drivingProgress + n >= ProgressSteps then ProgressSteps else s.drivingProgress + n)
    ensures Ticks(s, n) == s.(drivingProgress := Ticks(s, n).drivingProgress)
    decreases n
  {
    if n > 0 {
      TicksReachFull(Tick(s), n - 1);
    }
  }

  /** `n` firings of the driving interval. */
  function Ticks(s: GameState, n: nat): GameState
    decreases n
  {
    if n == 0 then s else Ticks(Tick(s), n - 1)
  }

  /** After an offered start, twenty ticks bring up the finish button and nineteen do not. */
  lemma FinishOfferedAfterTwentyTicks(s: GameState)
    requires StartOffered(s) && Truthy(s.player.currentTruckId)
    ensures FinishOffered(Ticks(StartTrip(s), ProgressSteps))
    ensures !FinishOffered(Ticks(StartTrip(s), ProgressSteps - 1))
  {
    TicksReachFull(StartTrip(s), ProgressSteps);
    TicksReachFull(StartTrip(s), ProgressSteps - 1);
  }
}

=== FILE: game_logic.dfy ===
/**
 The pure economic functions of services/gameLogic.ts: job generation,
 trip costs, the loan payment formula, loan construction and the two
 catalogue lookups. Every random draw of the source is an explicit
 parameter, and so is the square root behind the trip distance.
 */
module GameLogic {
  import opened Options
  import opened Types
  import opened Constants
  import opened Seqs
  import opened LoanMath

  // ---------------------------------------------------------------------
  // Catalogue lookups
  // ---------------------------------------------------------------------

  /** `getTruckModel`: the first catalogue model with the given id. */
  function GetTruckModel(id: string): (r: Option<TruckModel>)
    ensures r.Some? <==> exists i | 0 <= i < |TruckModels| :: TruckModels[i].id == id
    ensures r.Some? ==> r.value in TruckModels && r.value.id == id
  {
    Find(TruckModels, (m: TruckModel) => m.id == id)
  }

  /** `getCityName`: the name of the first city with that id, or the id itself (also when the name is empty). */
  function GetCityName(id: string): (r: string)
    ensures (forall i | 0 <= i < |Cities| :: Cities[i].id != id) ==> r == id
    ensures r == id || exists i | 0 <= i < |Cities| :: Cities[i].id == id && Cities[i].name == r
  {
    var c := Find(Cities, (c: City) => c.id == id);
    if c.Some? && c.value.name != "" then c.value.name else id
  }

  /** Every catalogue model resolves to itself. */
  lemma CatalogueModelsResolve()
    ensures forall i | 0 <= i < |TruckModels| :: GetTruckModel(TruckModels[i].id) == Some(TruckModels[i])
  {
    forall i | 0 <= i < |TruckModels|
      ensures GetTruckModel(TruckModels[i].id) == Some(TruckModels[i])
    {
      TruckModelsPerTier();
      var p := (m: TruckModel) => m.id == TruckModels[i].id;
      assert forall j | 0 <= j < |TruckModels| && j != i :: !p(TruckModels[j]);
      FindUnique(TruckModels, p, i);
    }
  }

  /** Every catalogue city resolves to its own name. */
  lemma CatalogueCitiesResolve()
    ensures forall i | 0 <= i < |Cities| :: GetCityName(Cities[i].id) == Cities[i].name
  {
    forall i | 0 <= i < |Cities|
      ensures GetCityName(Cities[i].id) == Cities[i].name
    {
      CitiesDistinct();
      var p := (c: City) => c.id == Cities[i].id;
      assert forall j | 0 <= j < |Cities| && j != i :: !p(Cities[j]);
      FindUnique(Cities, p, i);
    }
  }

  // ---------------------------------------------------------------------
  // Job generation
  // ---------------------------------------------------------------------

  /**
   The random draws of one `generateJob` call: the origin index, the
   successive destination indices the rejection loop draws, the index of
   the licence tier, the urgency draw in [0, 1), the cargo index and the
   weight offset `floor(random * 20000)`.
   */
  datatype JobDraws = JobDraws(
    origin: nat,
    destinations: seq<nat>,
    category: nat,
    urgency: real,
    cargo: nat,
    weightOffset: nat)

  const CargoLabels: seq<string> := ["Electronics", "Auto Parts", "Fruit", "Lumber", "Chemicals", "Machinery"]
  const BaseRatePerKm: real := 12.0
  /** Map units to kilometres. */
  const DistanceScale: real := 5.0
  const HighUrgencyThreshold: real := 0.7
  /** Milliseconds of deadline per kilometre. */
  const DeadlineMsPerKm: real := 2000.0

  /** The six cargo labels are distinct, so each cargo draw yields its own label. */
  lemma CargoLabelsDistinct()
    ensures |CargoLabels| == 6
    ensures forall i, j | 0 <= i < j < |CargoLabels| :: CargoLabels[i] != CargoLabels[j]
  {
  }

  /** The ranges `Math.floor(Math.random() * n)` and `Math.random()` can produce. */
  predicate WellFormedDraws(d: JobDraws)
  {
    && d.origin < |Cities|
    && (forall k | 0 <= k < |d.destinations| :: d.destinations[k] < |Cities|)
    && d.category < |Categories|
    && 0.0 <= d.urgency < 1.0
    && d.cargo < |CargoLabels|
    && d.weightOffset < 20000
  }

  /** The rejection loop: the first drawn city whose id differs from the origin's. */
  function Destination(originId: string, draws: seq<nat>): (r: Option<City>)
    requires forall k | 0 <= k < |draws| :: draws[k] < |Cities|
    ensures r.None? <==> forall k | 0 <= k < |draws| :: Cities[draws[k]].id == originId
    ensures r.Some? ==> r.value in Cities && r.value.id != originId
    ensures r.Some? ==> exists k | 0 <= k < |draws| ::
      r.value == Cities[draws[k]] && forall j | 0 <= j < k :: Cities[draws[j]].id == originId
    decreases |draws|
  {
    if |draws| == 0 then None
    else if Cities[draws[0]].id != originId then Some(Cities[draws[0]])
    else
      var r := Destination(originId, draws[1..]);
      assert forall k | 1 <= k < |draws| :: draws[k] == draws[1..][k - 1];
      r
  }

  /** The squared map distance between two cities. */
  function SqDist(a: City, b: City): real
  {
    (a.x - b.x) * (a.x - b.x) + (a.y - b.y) * (a.y - b.y)
  }

  /** `dist` is `Math.sqrt(dx^2 + dy^2) * 5` for the two cities. */
  predicate IsScaledDistance(a: City, b: City, dist: real)
  {
    dist >= 0.0 && dist * dist == 25.0 * SqDist(a, b)  // 25 is DistanceScale squared
  }

  /** The distance supplied to the generator is the scaled distance of the route the draws pick. */
  predicate DistanceFits(d: JobDraws, dist: real)
    requires WellFormedDraws(d)
  {
    var origin := Cities[d.origin];
    match Destination(origin.id, d.destinations)
    case None => true
    case Some(to) => IsScaledDistance(origin, to, dist)
  }

  /** Two different catalogue cities are a positive distance apart. */
  lemma DistancePositive(a: City, b: City, dist: real)
    requires a in Cities && b in Cities && a.id != b.id
    requires IsScaledDistance(a, b, dist)
    ensures dist > 0.0
  {
    CityPairApart(a, b);
    ScaledPositive(SqDist(a, b), 25.0 * SqDist(a, b));
    RootOfPositive(dist, 25.0 * SqDist(a, b));
  }

  /** Two different catalogue cities are at least sqrt(5800) map units apart. */
  lemma CityPairApart(a: City, b: City)
    requires a in Cities && b in Cities && a.id != b.id
    ensures SqDist(a, b) >= 5800.0
  {
    CitiesDistinct();
  }

  /** Proof step, not a fact of the game: 25 times a positive real is positive. */
  lemma ScaledPositive(s: real, t: real)
    requires s > 0.0 && t == 25.0 * s
    ensures t > 0.0
  {
  }

  /** Proof step, not a fact of the game: a non-negative root of a positive real is positive. */
  lemma RootOfPositive(x: real, t: real)
    requires x >= 0.0 && x * x == t && t > 0.0
    ensures x > 0.0
  {
    assert x == 0.0 ==> x * x == 0.0;
  }

  /** `Math.round`: the nearest integer, halves rounded up. */
  function Round(x: real): (r: int)
    ensures r as real - 0.5 <= x < r as real + 0.5
  {
    (x + 0.5).Floor
  }

  lemma RoundMonotone(x: real, y: real)
    requires x <= y
    ensures Round(x) <= Round(y)
  {
  }

  function UrgencyMultiplier(draw: real): (m: real)
    ensures m == 1.5 || m == 1.0
    ensures m == 1.5 <==> draw > HighUrgencyThreshold
  {
    if draw > HighUrgencyThreshold then 1.5 else 1.0
  }

  /** The unrounded payout: rate per km, scaled by level and urgency. */
  function RawPayout(distance: real, level: int, multiplier: real): real
  {
    distance * BaseRatePerKm * (1.0 + level as real * 0.05) * multiplier
  }

  /** The rounded payout is a whole amount within half a unit of the raw payout, and never negative when its inputs are not. */
  function Payout(distance: real, level: int, multiplier: real): (r: real)
    ensures r == r.Floor as real
    ensures r - 0.5 <= RawPayout(distance, level, multiplier) < r + 0.5
    ensures distance >= 0.0 && level >= 0 && multiplier >= 0.0 ==> r >= 0.0
  {
    PayoutFactorsNonNegative(distance, level, multiplier);
    Round(RawPayout(distance, level, multiplier)) as real
  }

  lemma PayoutFactorsNonNegative(distance: real, level: int, multiplier: real)
    ensures distance >= 0.0 && level >= 0 && multiplier >= 0.0 ==> RawPayout(distance, level, multiplier) >= 0.0
  {
    if distance >= 0.0 && level >= 0 && multiplier >= 0.0 {
      var f := 1.0 + level as real * 0.05;
      assert distance * BaseRatePerKm >= 0.0;
      MulLe(distance * BaseRatePerKm, 0.0, f);
      MulLe(distance * BaseRatePerKm * f, 0.0, multiplier);
    }
  }

  /** A longer trip never pays less, all else equal. */
  lemma PayoutMonotone(d1: real, d2: real, level: int, multiplier: real)
    requires 0.0 <= d1 <= d2 && level >= 0 && multiplier >= 0.0
    ensures Payout(d1, level, multiplier) <= Payout(d2, level, multiplier)
  {
    var f := BaseRatePerKm * (1.0 + level as real * 0.05) * multiplier;
    MulLe(BaseRatePerKm, 0.0, 1.0 + level as real * 0.05);
    MulLe(BaseRatePerKm * (1.0 + level as real * 0.05), 0.0, multiplier);
    MulLe(f, d1, d2);
    assert RawPayout(d1, level, multiplier) == f * d1;
    assert RawPayout(d2, level, multiplier) == f * d2;
    RoundMonotone(f * d1, f * d2);
  }

  /**
   `generateJob(playerLevel)` with its draws supplied. `None` means the
   supplied destination draws never left the origin; the source would go
   on drawing.
   */
  function GenerateJob(playerLevel: int, d: JobDraws, distance: real, id: string, now: real): (r: Option<Job>)
    requires WellFormedDraws(d) && DistanceFits(d, distance)
    ensures r.None? <==> forall k | 0 <= k < |d.destinations| ::
      Cities[d.destinations[k]].id == Cities[d.origin].id
    ensures r.Some? ==>
      var j := r.value;
      && j.id == id
      && j.from == Cities[d.origin].id
      && j.from != j.to
      && j.to == Destination(Cities[d.origin].id, d.destinations).value.id
      && (exists c | c in Cities :: c.id == j.to && IsScaledDistance(Cities[d.origin], c, j.distance))
      && j.distance > 0.0
      && j.payout == j.payout.Floor as real
      && (playerLevel >= 0 ==> j.payout >= 0.0)
      && (j.urgency == High <==> d.urgency > HighUrgencyThreshold)
      && (j.urgency == High || j.urgency == Low)
      && j.payout - 0.5 <= RawPayout(j.distance, playerLevel, if j.urgency == High then 1.5 else 1.0) < j.payout + 0.5
      && j.kind == Common
      && 1000 <= j.weight < 21000
      && j.weight == d.weightOffset + 1000
      && j.cargo in CargoLabels
      && j.cargo == CargoLabels[d.cargo]
      && j.requiredLicense == Categories[d.category]
      && j.deadline == now + j.distance * DeadlineMsPerKm
  {
    var origin := Cities[d.origin];
    match Destination(origin.id, d.destinations)
    case None => None
    case Some(to) =>
      DistancePositive(origin, to, distance);
      var multiplier := UrgencyMultiplier(d.urgency);
      Some(Job(
        id := id,
        cargo := CargoLabels[d.cargo],
        weight := d.weightOffset + 1000,
        from := origin.id,
        to := to.id,
        payout := Payout(distance, playerLevel, multiplier),
        urgency := if multiplier > 1.0 then High else Low,
        kind := Common,
        requiredLicense := Categories[d.category],
        distance := distance,
        deadline := now + distance * DeadlineMsPerKm))
  }

  // ---------------------------------------------------------------------
  // Trip costs
  // ---------------------------------------------------------------------

  datatype TripCosts = TripCosts(fuelCost: real, maintenanceCost: real, fuelConsumed: real)

  const MaintenancePerKm: real := 0.45

  /** `calculateTripCosts`: fuel used at the model's consumption, its price, and wear per km. */
  function CalculateTripCosts(truck: TruckModel, distance: real): (r: TripCosts)
    ensures r.fuelConsumed * 100.0 == truck.consumption * distance
    ensures r.fuelCost == distance * truck.consumption * 0.0165
    ensures r.maintenanceCost == distance * MaintenancePerKm
    ensures truck.consumption >= 0.0 && distance >= 0.0 ==>
      r.fuelConsumed >= 0.0 && r.fuelCost >= 0.0 && r.maintenanceCost >= 0.0
  {
    var fuelConsumed := (truck.consumption / 100.0) * distance;
    TripCostsNonNegative(truck.consumption, distance);
    TripCosts(fuelConsumed * FuelPricePerL, distance * MaintenancePerKm, fuelConsumed)
  }

  lemma TripCostsNonNegative(consumption: real, distance: real)
    ensures consumption >= 0.0 && distance >= 0.0 ==> (consumption / 100.0) * distance >= 0.0
  {
    if consumption >= 0.0 && distance >= 0.0 {
      MulLe(consumption / 100.0, 0.0, distance);
    }
  }

  function AddCosts(a: TripCosts, b: TripCosts): TripCosts
  {
    TripCosts(a.fuelCost + b.fuelCost, a.maintenanceCost + b.maintenanceCost, a.fuelConsumed + b.fuelConsumed)
  }

  function ScaleCosts(k: real, a: TripCosts): TripCosts
  {
    TripCosts(k * a.fuelCost, k * a.maintenanceCost, k * a.fuelConsumed)
  }

  /** Trip costs are linear in the distance. */
  lemma TripCostsLinear(truck: TruckModel, k: real, a: real, b: real)
    ensures CalculateTripCosts(truck, k * a + b) ==
      AddCosts(ScaleCosts(k, CalculateTripCosts(truck, a)), CalculateTripCosts(truck, b))
  {
    var c := truck.consumption / 100.0;
    LeftDistributes(c, k, a, b);
    RightDistributes(FuelPricePerL, k, c * a, c * b);
    RightDistributes(MaintenancePerKm, k, a, b);
  }

  lemma LeftDistributes(c: real, k: real, a: real, b: real)
    ensures c * (k * a + b) == k * (c * a) + c * b
  {
    calc {
      c * (k * a + b);
      c * (k * a) + c * b;
      k * (c * a) + c * b;
    }
  }

  lemma RightDistributes(p: real, k: real, u: real, v: real)
    ensures (k * u + v) * p == k * (u * p) + v * p
  {
    calc {
      (k * u + v) * p;
      (k * u) * p + v * p;
      k * (u * p) + v * p;
    }
  }

  // ---------------------------------------------------------------------
  // Loans
  // ---------------------------------------------------------------------

  function MonthlyRate(annualRate: real): real
  {
    annualRate / 12.0
  }

  /** The two ways the formula's denominator vanishes, and the usual way it does not. */
  lemma GrowthFactorCases(annualRate: real, termMonths: nat)
    ensures MonthlyRate(annualRate) == 0.0 || termMonths == 0 ==>
      Pow(1.0 + MonthlyRate(annualRate), termMonths) == 1.0
    ensures annualRate > 0.0 && termMonths >= 1 ==>
      Pow(1.0 + MonthlyRate(annualRate), termMonths) > 1.0
  {
    PowOfOne(termMonths);
    if annualRate > 0.0 && termMonths >= 1 {
      PowAboveOne(1.0 + MonthlyRate(annualRate), termMonths);
    }
  }

  /**
   `calculateLoanMonthlyPayment`: P * r * (1+r)^n / ((1+r)^n - 1) with
   r = annualRate / 12. `None` stands for the division by zero the source
   performs when (1+r)^n is 1, which happens for r = 0 and for n = 0.
   */
  function CalculateLoanMonthlyPayment(principal: real, annualRate: real, termMonths: nat): (r: Option<real>)
    ensures r.None? <==> Pow(1.0 + MonthlyRate(annualRate), termMonths) == 1.0
    ensures MonthlyRate(annualRate) == 0.0 || termMonths == 0 ==> r.None?
    ensures annualRate > 0.0 && termMonths >= 1 ==> r.Some?
    ensures r.Some? ==>
      var q := Pow(1.0 + MonthlyRate(annualRate), termMonths);
      r.value * (q - 1.0) == principal * MonthlyRate(annualRate) * q
  {
    GrowthFactorCases(annualRate, termMonths);
    var rate := MonthlyRate(annualRate);
    var q := Pow(1.0 + rate, termMonths);
    if q == 1.0 then None else Some(principal * rate * q / (q - 1.0))
  }

  /**
   The payment amortises the principal: starting from the principal,
   accruing the monthly rate and paying once a month for the whole term
   leaves a balance of exactly zero.
   */
  lemma PaymentAmortises(principal: real, annualRate: real, termMonths: nat)
    requires CalculateLoanMonthlyPayment(principal, annualRate, termMonths).Some?
    ensures Balance(principal, MonthlyRate(annualRate),
      CalculateLoanMonthlyPayment(principal, annualRate, termMonths).value, termMonths) == 0.0
  {
    var rate := MonthlyRate(annualRate);
    var payment := CalculateLoanMonthlyPayment(principal, annualRate, termMonths).value;
    var q := Pow(1.0 + rate, termMonths);
    BalanceClosedForm(principal, rate, payment, termMonths);
    assert Balance(principal, rate, payment, termMonths) * rate == 0.0;
    assert rate != 0.0;
  }

  /** Over the full term a loan at a positive rate repays at least its principal. */
  lemma TotalRepaidCoversPrincipal(principal: real, annualRate: real, termMonths: nat)
    ensures principal >= 0.0 && annualRate > 0.0 && termMonths >= 1 ==>
      && CalculateLoanMonthlyPayment(principal, annualRate, termMonths).Some?
      && CalculateLoanMonthlyPayment(principal, annualRate, termMonths).value * termMonths as real >= principal
  {
    if principal >= 0.0 && annualRate > 0.0 && termMonths >= 1 {
      var rate := MonthlyRate(annualRate);
      var payment := CalculateLoanMonthlyPayment(principal, annualRate, termMonths).value;
      var q := Pow(1.0 + rate, termMonths);
      var n := termMonths as real;
      GrowthBound(rate, termMonths);
      GrowthFactorCases(annualRate, termMonths);
      MulLe(principal, q - 1.0, n * rate * q);
      assert payment * (q - 1.0) == principal * rate * q;
      assert payment * n * (q - 1.0) == n * (payment * (q - 1.0));
      assert principal * (n * rate * q) == n * (principal * rate * q);
      assert payment * n * (q - 1.0) >= principal * (q - 1.0);
      CancelPositive(payment * n, principal, q - 1.0);
    }
  }

  /** Proof step, not a fact of the game: dividing both sides of an inequality by a positive factor. */
  lemma CancelPositive(x: real, y: real, d: real)
    requires d > 0.0 && x * d >= y * d
    ensures x >= y
  {
  }

  /**
   `createLoan`: a loan of `amount` at `annualRate` for `termMonths`,
   whose remaining balance is the whole sum repayable over the term.
   */
  function CreateLoan(id: string, amount: real, annualRate: real, termMonths: nat): (r: Loan)
    requires CalculateLoanMonthlyPayment(amount, annualRate, termMonths).Some?
    ensures r.id == id && r.principal == amount && r.termMonths == termMonths && r.paidMonths == 0
    ensures r.interestRate == annualRate / 12.0
    ensures r.remainingBalance == r.monthlyPayment * termMonths as real
    ensures Balance(r.principal, r.interestRate, r.monthlyPayment, r.termMonths) == 0.0
    ensures amount >= 0.0 && annualRate > 0.0 ==> r.remainingBalance >= r.principal
  {
    var payment := CalculateLoanMonthlyPayment(amount, annualRate, termMonths).value;
    PaymentAmortises(amount, annualRate, termMonths);
    TotalRepaidCoversPrincipal(amount, annualRate, termMonths);
    MakeLoan(id, amount, annualRate, termMonths, payment)
  }

  function MakeLoan(id: string, amount: real, annualRate: real, termMonths: nat, payment: real): Loan
  {
    Loan(
      id := id,
      principal := amount,
      remainingBalance := payment * termMonths as real,
      interestRate := MonthlyRate(annualRate),
      monthlyPayment := payment,
      termMonths := termMonths,
      paidMonths := 0)
  }
}

=== FILE: job_board.dfy ===
/**
 The per-job rules of the job board (components/JobBoard.tsx): the
 restriction mark, the accept button's enabling and its label, and the
 licence badges.
 */
module JobBoard {
  import opened Options
  import opened Types
  import opened App

  /** `license < job.requiredLicense`. */
  predicate IsRestricted(license: LicenseCategory, job: Job)
    ensures IsRestricted(license, job) <==> Rank(license) < Rank(job.requiredLicense)
  {
    Below(license, job.requiredLicense)
  }

  /** The accept button is enabled: no job is active (strict `!== null`) and the job is not restricted. */
  predicate AcceptEnabled(activeJobId: Option<string>, license: LicenseCategory, job: Job)
    ensures AcceptEnabled(activeJobId, license, job) <==>
      activeJobId.None? && Rank(job.requiredLicense) <= Rank(license)
  {
    !(activeJobId.Some? || IsRestricted(license, job))
  }

  datatype Label = ActiveLabel | LockedLabel | AcceptLabel

  /** The button text: ACTIVE for the active job, else LOCKED when restricted, else ACCEPT. */
  function ButtonLabel(activeJobId: Option<string>, license: LicenseCategory, job: Job): (l: Label)
    ensures l == ActiveLabel <==> activeJobId == Some(job.id)
    ensures l == LockedLabel <==> activeJobId != Some(job.id) && Rank(license) < Rank(job.requiredLicense)
    ensures l == AcceptLabel ==> !IsRestricted(license, job)
  {
    if activeJobId == Some(job.id) then ActiveLabel
    else if IsRestricted(license, job) then LockedLabel
    else AcceptLabel
  }

  /** The badge of `cat` is lit: `license >= cat`. */
  predicate BadgeLit(license: LicenseCategory, cat: LicenseCategory)
    ensures BadgeLit(license, cat) <==> Rank(cat) <= Rank(license)
  {
    AtLeast(license, cat)
  }

  /**
   The restriction mark is the accept handler's licence test: for the job
   the handler looks up, a restricted job is always refused, and with a
   truck selected an enabled button is always accepted.
   */
  lemma RestrictionMatchesAcceptGuard(s: GameState, job: Job)
    requires JobWithId(s.availableJobs, job.id) == Some(job)
    ensures IsRestricted(s.player.license, job) ==> AcceptRejected(s, job.id)
    ensures AcceptEnabled(s.player.activeJobId, s.player.license, job) && Truthy(s.player.currentTruckId) ==>
      !AcceptRejected(s, job.id)
  {
  }

  /**
   An ACCEPT label does not mean the button is enabled: with another job
   active the label reads ACCEPT and the button is disabled.
   */
  lemma AcceptLabelOnDisabledButton(active: string, license: LicenseCategory, job: Job)
    requires active != job.id && !IsRestricted(license, job)
    ensures ButtonLabel(Some(active), license, job) == AcceptLabel
    ensures !AcceptEnabled(Some(active), license, job)
  {
  }
}

=== FILE: license_center.dfy ===
/**
 The exam gating of the licence screen (components/LicenseCenter.tsx):
 which tiers count as owned, and when a tier's exam button is rendered
 and enabled. The button calls the licence handler of `App`.
 */
module LicenseCenter {
  import opened Types
  import opened Constants
  import opened App

  /** `player.license >= cat`. */
  predicate IsOwned(p: PlayerProfile, cat: LicenseCategory)
    ensures IsOwned(p, cat) <==> Rank(cat) <= Rank(p.license)
  {
    AtLeast(p.license, cat)
  }

  /** The first tier, or the tier before `Categories[idx]` is owned. */
  predicate PrevOwned(p: PlayerProfile, idx: nat)
    requires idx < |Categories|
    ensures PrevOwned(p, idx) <==> idx <= Rank(p.license) + 1
  {
    idx == 0 || AtLeast(p.license, Categories[idx - 1])
  }

  /** The money covers the exam cost; covering one exam covers every lower tier's too. */
  predicate CanAfford(p: PlayerProfile, cat: LicenseCategory)
    ensures CanAfford(p, cat) ==> forall c | Rank(c) <= Rank(cat) :: p.money >= Requirement(c).cost
    ensures cat == B ==> (CanAfford(p, cat) <==> p.money >= 0.0)
  {
    p.money >= Requirement(cat).cost
  }

  /** The level reaches the tier's minimum; reaching one tier's reaches every lower tier's too. */
  predicate LevelMet(p: PlayerProfile, cat: LicenseCategory)
    ensures LevelMet(p, cat) ==> forall c | Rank(c) <= Rank(cat) :: p.level >= Requirement(c).minLevel
    ensures cat == B ==> (LevelMet(p, cat) <==> p.level >= 1)
  {
    p.level >= Requirement(cat).minLevel
  }

  /**
   The exam button of the tier at `idx` is rendered (the tier is not owned)
   and not disabled (previous tier owned, exam cost and minimum level met).
   */
  predicate ExamClickable(p: PlayerProfile, idx: nat)
    requires idx < |Categories|
    ensures ExamClickable(p, idx) <==>
      && idx == Rank(p.license) + 1
      && p.money >= Requirement(Categories[idx]).cost
      && p.level >= Requirement(Categories[idx]).minLevel
  {
    var cat := Categories[idx];
    !IsOwned(p, cat) && PrevOwned(p, idx) && CanAfford(p, cat) && LevelMet(p, cat)
  }

  /** Tier B is owned whatever the licence. */
  lemma BasicAlwaysOwned(p: PlayerProfile)
    ensures IsOwned(p, B)
    ensures forall idx | 0 <= idx < |Categories| :: IsOwned(p, Categories[idx]) <==> idx <= Rank(p.license)
  {
  }

  /**
   At most one exam is clickable, the one for the tier right above the
   current licence: tiers cannot be skipped from this screen.
   */
  lemma AtMostOneExam(p: PlayerProfile, i: nat, j: nat)
    requires i < |Categories| && j < |Categories|
    requires ExamClickable(p, i) && ExamClickable(p, j)
    ensures i == j && i >= 1 && Categories[i - 1] == p.license
  {
  }

  /**
   Clicking a clickable exam always passes the handler's 5000 test and
   moves the licence up exactly one tier. The handler charges the flat
   5000, which is the listed cost for tier C and less than it for D and E.
   */
  lemma ExamUpgradesOneTier(s: GameState, idx: nat)
    requires idx < |Categories| && ExamClickable(s.player, idx)
    ensures s.player.money >= LicenseFee
    ensures Rank(UpgradeLicense(s, Categories[idx]).player.license) == Rank(s.player.license) + 1
    ensures UpgradeLicense(s, Categories[idx]).player.money == s.player.money - LicenseFee
    ensures LicenseFee <= Requirement(Categories[idx]).cost
    ensures idx >= 2 <==> LicenseFee < Requirement(Categories[idx]).cost
  {
    RequirementsIncrease();
    assert Requirement(Categories[1]).cost == LicenseFee;
  }
}

=== FILE: loan_math.dfy ===
/**
 Powers and loan balances over the reals: the arithmetic behind the
 fixed-rate amortising-loan formula of services/gameLogic.ts.
 */
module LoanMath {

  /** `Math.pow(x, n)` for a whole exponent. */
  function Pow(x: real, n: nat): real
    decreases n
  {
    if n == 0 then 1.0 else x * Pow(x, n - 1)
  }

  lemma {:induction false} PowOfOne(n: nat)
    ensures Pow(1.0, n) == 1.0
  {
    if n > 0 {
      PowOfOne(n - 1);
    }
  }

  lemma {:induction false} PowAtLeastOne(x: real, n: nat)
    requires x >= 1.0
    ensures Pow(x, n) >= 1.0
  {
    if n > 0 {
      PowAtLeastOne(x, n - 1);
      assert x * Pow(x, n - 1) >= 1.0 * Pow(x, n - 1);
    }
  }

  /** A base above one raised to a positive power is above one. */
  lemma PowAboveOne(x: real, n: nat)
    requires x > 1.0 && n >= 1
    ensures Pow(x, n) > 1.0
  {
    PowAtLeastOne(x, n - 1);
    assert x * Pow(x, n - 1) > 1.0 * Pow(x, n - 1);
  }

  /**
   The balance after `k` months of a loan of `principal` at monthly rate
   `rate` repaid by `payment` a month: interest accrues, then one payment
   is made.
   */
  function Balance(principal: real, rate: real, payment: real, k: nat): real
    decreases k
  {
    if k == 0 then principal
    else Balance(principal, rate, payment, k - 1) * (1.0 + rate) - payment
  }

  /** The closed form of the balance, multiplied through by the rate. */
  lemma {:induction false} BalanceClosedForm(principal: real, rate: real, payment: real, k: nat)
    ensures Balance(principal, rate, payment, k) * rate ==
      principal * rate * Pow(1.0 + rate, k) - payment * (Pow(1.0 + rate, k) - 1.0)
  {
    if k > 0 {
      BalanceClosedForm(principal, rate, payment, k - 1);
      BalanceStep(principal, rate, payment, Balance(principal, rate, payment, k - 1), Pow(1.0 + rate, k - 1));
    }
  }

  /** One inductive step of `BalanceClosedForm`, with the balance and the power abstracted. */
  lemma BalanceStep(principal: real, rate: real, payment: real, prev: real, qk: real)
    requires prev * rate == principal * rate * qk - payment * (qk - 1.0)
    ensures (prev * (1.0 + rate) - payment) * rate ==
      principal * rate * ((1.0 + rate) * qk) - payment * ((1.0 + rate) * qk - 1.0)
  {
    var q := 1.0 + rate;
    calc {
      (prev * q - payment) * rate;
      q * (prev * rate) - payment * rate;
      q * (principal * rate * qk - payment * (qk - 1.0)) - payment * rate;
      principal * rate * (q * qk) - payment * (q * qk - 1.0);
    }
  }

  /** (1 + r)^n - 1 is at most n * r * (1 + r)^n for a non-negative rate. */
  lemma {:induction false} GrowthBound(rate: real, n: nat)
    requires rate >= 0.0
    ensures Pow(1.0 + rate, n) - 1.0 <= n as real * rate * Pow(1.0 + rate, n)
  {
    if n > 0 {
      var q := 1.0 + rate;
      GrowthBound(rate, n - 1);
      PowAtLeastOne(q, n);
      GrowthStep(rate, (n - 1) as real, Pow(q, n - 1), Pow(q, n));
      assert ((n - 1) as real + 1.0) == n as real;
    }
  }

  /** One inductive step of `GrowthBound`, with the powers abstracted. */
  lemma GrowthStep(rate: real, m: real, qp: real, pn: real)
    requires rate >= 0.0 && m >= 0.0 && pn >= 1.0
    requires qp - 1.0 <= m * rate * qp
    requires pn == (1.0 + rate) * qp
    ensures pn - 1.0 <= (m + 1.0) * rate * pn
  {
    var q := 1.0 + rate;
    MulLe(q, qp - 1.0, m * rate * qp);
    assert q * (m * rate * qp) == m * rate * pn;
    assert pn - 1.0 == q * (qp - 1.0) + rate;
    MulLe(rate, 1.0, pn);
    assert (m + 1.0) * rate * pn == m * rate * pn + rate * pn;
  }

  /** Multiplying both sides of an inequality by a non-negative factor. */
  lemma MulLe(c: real, a: real, b: real)
    requires c >= 0.0 && a <= b
    ensures c * a <= c * b
  {
    assert c * b - c * a == c * (b - a);
  }
}

=== FILE: market.dfy ===
/**
 The dealership screen (components/Market.tsx): the listing filter, the
 price it displays for a used truck, how it styles each button as
 affordable, and the arguments each button passes to the purchase
 handler of `App`.
 */
module Market {
  import opened Options
  import opened Types
  import opened Constants
  import opened GameLogic
  import opened App

  /** The displayed used price is 65 % of the base price. */
  const UsedDisplayFactor: real := 0.65

  datatype Listing = All | NewOnly | UsedOnly
  datatype BuyButton = BuyNew | FinanceNew | BuyUsed
  datatype BuyRequest = BuyRequest(modelId: string, isUsed: bool, financed: bool)

  /** The used price on the card is 65 % of the base price, between the used price charged and the new price. */
  function UsedDisplayPrice(m: TruckModel): (r: real)
    ensures r == m.basePrice * 0.65
    ensures m.basePrice > 0.0 ==> PurchasePrice(m, true) < r < m.basePrice
  {
    m.basePrice * UsedDisplayFactor
  }

  /** Where a button sits on the card: buy new, then finance, then buy used. */
  function Position(b: BuyButton): nat
  {
    match b
    case BuyNew => 0
    case FinanceNew => 1
    case BuyUsed => 2
  }

  /** The buttons of one model card under a filter, in rendering order. */
  function ButtonsShown(f: Listing): (r: seq<BuyButton>)
    ensures BuyNew in r <==> f == All || f == NewOnly
    ensures FinanceNew in r <==> f == All || f == NewOnly
    ensures BuyUsed in r <==> f == All || f == UsedOnly
    ensures |r| > 0
    ensures forall i, j | 0 <= i < j < |r| :: Position(r[i]) < Position(r[j])
  {
    (if f == All || f == NewOnly then [BuyNew, FinanceNew] else []) +
    (if f == All || f == UsedOnly then [BuyUsed] else [])
  }

  /** The `onBuy` call a button makes: (id, false), (id, false, true) or (id, true). */
  function Request(m: TruckModel, b: BuyButton): (r: BuyRequest)
    ensures r.modelId == m.id
    ensures r.isUsed <==> b == BuyUsed
    ensures r.financed <==> b == FinanceNew
    ensures !(r.isUsed && r.financed)
  {
    match b
    case BuyNew => BuyRequest(m.id, false, false)
    case FinanceNew => BuyRequest(m.id, false, true)
    case BuyUsed => BuyRequest(m.id, true, false)
  }

  /** The button is styled as affordable. */
  predicate StyledAffordable(money: real, m: TruckModel, b: BuyButton)
    ensures b != BuyUsed ==>
      (StyledAffordable(money, m, b) <==> money >= Upfront(PurchasePrice(m, false), b == FinanceNew))
    ensures b == BuyUsed ==> (StyledAffordable(money, m, b) <==> money >= m.basePrice * 0.65)
    ensures b == BuyUsed && m.basePrice > 0.0 && StyledAffordable(money, m, b) ==> money > PurchasePrice(m, true)
  {
    match b
    case BuyNew => money >= m.basePrice
    case FinanceNew => money >= m.basePrice * 0.1
    case BuyUsed => money >= UsedDisplayPrice(m)
  }

  /** The purchase a button requests goes through. */
  predicate RequestSucceeds(s: GameState, m: TruckModel, b: BuyButton)
  {
    var q := Request(m, b);
    CanBuy(s, q.modelId, q.isUsed, q.financed)
  }

  /** For the new and financed buttons the styling is exactly the handler's money test. */
  lemma NewStylingMatchesHandler(s: GameState, i: nat, b: BuyButton)
    requires i < |TruckModels| && b != BuyUsed
    ensures StyledAffordable(s.player.money, TruckModels[i], b) <==> RequestSucceeds(s, TruckModels[i], b)
  {
    CatalogueModelsResolve();
  }

  /**
   The used button is styled on 65 % of the base price while the handler
   charges 60 %: a used truck styled affordable can always be bought, and
   the displayed price is above the price charged.
   */
  lemma UsedStylingIsStricter(s: GameState, i: nat)
    requires i < |TruckModels|
    ensures StyledAffordable(s.player.money, TruckModels[i], BuyUsed) ==> RequestSucceeds(s, TruckModels[i], BuyUsed)
    ensures UsedDisplayPrice(TruckModels[i]) > PurchasePrice(TruckModels[i], true)
  {
    CatalogueModelsResolve();
    TruckModelsPerTier();
  }

  /**
   For every catalogue model, a used purchase goes through while its button
   looks unaffordable exactly when the money lies in [60 %, 65 %) of the base price.
   */
  lemma UsedStylingGap(s: GameState, i: nat)
    requires i < |TruckModels|
    ensures var m := TruckModels[i];
      RequestSucceeds(s, m, BuyUsed) && !StyledAffordable(s.player.money, m, BuyUsed) <==>
      m.basePrice * 0.6 <= s.player.money < m.basePrice * 0.65
  {
    CatalogueModelsResolve();
  }

  /** With exactly the charged used price the purchase goes through, but the button is styled unaffordable. */
  lemma UsedStylingMisleads(s: GameState)
    requires s.player.money == 27000.0
    ensures RequestSucceeds(s, TruckModels[0], BuyUsed)
    ensures !StyledAffordable(s.player.money, TruckModels[0], BuyUsed)
  {
    CatalogueModelsResolve();
  }

  /**
   The starting money covers the financed down payment of the two
   cheapest models only, and no purchase outright, new or used.
   */
  lemma StartingMoneyBuys(now: real, jobs: seq<Job>)
    ensures var s := InitialState(now, jobs);
      forall i | 0 <= i < |TruckModels| ::
        && (RequestSucceeds(s, TruckModels[i], FinanceNew) <==> i < 2)
        && !RequestSucceeds(s, TruckModels[i], BuyNew)
        && !RequestSucceeds(s, TruckModels[i], BuyUsed)
  {
    CatalogueModelsResolve();
  }
}

=== FILE: seqs.dfy ===
/** `Array.prototype.find` and `Array.prototype.filter` over sequences. */
module Seqs {
  import opened Options

  /** The first element satisfying `p`, or `None` when there is none. */
  function Find<T>(xs: seq<T>, p: T -> bool): (r: Option<T>)
    ensures r.None? <==> forall i | 0 <= i < |xs| :: !p(xs[i])
    ensures r.Some? ==> exists i | 0 <= i < |xs| ::
      (xs[i] == r.value && p(xs[i]) && forall j | 0 <= j < i :: !p(xs[j]))
  {
    if |xs| == 0 then None
    else if p(xs[0]) then Some(xs[0])
    else
      var r := Find(xs[1..], p);
      assert forall i | 1 <= i < |xs| :: xs[i] == xs[1..][i - 1];
      r
  }

  /** When the elements satisfying `p` are exactly the one at index `k`, `Find` returns it. */
  lemma FindUnique<T>(xs: seq<T>, p: T -> bool, k: nat)
    requires k < |xs| && p(xs[k])
    requires forall i | 0 <= i < |xs| && i != k :: !p(xs[i])
    ensures Find(xs, p) == Some(xs[k])
  {
  }

  /** The elements satisfying `p`, in their original order. */
  function Filter<T>(xs: seq<T>, p: T -> bool): (r: seq<T>)
    ensures |r| <= |xs|
    ensures forall i | 0 <= i < |r| :: p(r[i]) && r[i] in xs
    ensures forall i | 0 <= i < |xs| && p(xs[i]) :: xs[i] in r
    ensures (forall i | 0 <= i < |xs| :: p(xs[i])) ==> r == xs
  {
    if |xs| == 0 then []
    else
      var rest := Filter(xs[1..], p);
      assert forall i | 1 <= i < |xs| :: xs[i] == xs[1..][i - 1];
      if p(xs[0]) then [xs[0]] + rest else rest
  }

  /** Filtering keeps every satisfying element as often as it occurs, and drops the others. */
  lemma {:induction false} FilterCounts<T>(xs: seq<T>, p: T -> bool)
    ensures multiset(Filter(xs, p)) <= multiset(xs)
    ensures forall x | x in xs :: multiset(Filter(xs, p))[x] == if p(x) then multiset(xs)[x] else 0
    decreases |xs|
  {
    if |xs| > 0 {
      var t := xs[1..];
      assert xs == [xs[0]] + t;
      assert multiset(xs) == multiset{xs[0]} + multiset(t);
      FilterCounts(t, p);
      assert Filter(xs, p) == if p(xs[0]) then [xs[0]] + Filter(t, p) else Filter(t, p);
      forall x | x in xs
        ensures multiset(Filter(xs, p))[x] == if p(x) then multiset(xs)[x] else 0
      {
        if x !in t {
          assert multiset(t)[x] == 0;
        }
      }
    }
  }

  /** Filtering a one-element sequence keeps the element exactly when it satisfies `p`. */
  lemma FilterSingleton<T>(x: T, p: T -> bool)
    ensures Filter([x], p) == if p(x) then [x] else []
  {
  }

  /** Filtering distributes over concatenation, so the kept elements stay in their order. */
  lemma {:induction false} FilterAppend<T>(a: seq<T>, b: seq<T>, p: T -> bool)
    ensures Filter(a + b, p) == Filter(a, p) + Filter(b, p)
    decreases |a|
  {
    if |a| > 0 {
      assert (a + b)[0] == a[0];
      assert (a + b)[1..] == a[1..] + b;
      FilterAppend(a[1..], b, p);
    } else {
      assert a + b == b;
    }
  }

  /** When only the element at index `k` fails `p`, filtering removes exactly it and keeps the rest in order. */
  lemma {:induction false} FilterRemovesOne<T>(xs: seq<T>, p: T -> bool, k: nat)
    requires k < |xs| && !p(xs[k])
    requires forall i | 0 <= i < |xs| && i != k :: p(xs[i])
    ensures Filter(xs, p) == xs[..k] + xs[k + 1..]
  {
    assert forall i | 1 <= i < |xs| :: xs[i] == xs[1..][i - 1];
    if k == 0 {
      assert Filter(xs, p) == Filter(xs[1..], p);
    } else {
      FilterRemovesOne(xs[1..], p, k - 1);
      assert xs[1..][..k - 1] == xs[1..k] && xs[1..][k..] == xs[k + 1..];
      assert [xs[0]] + xs[1..k] == xs[..k];
    }
  }
}

=== FILE: session.dfy ===
/**
 A play session: the commands the screens can send to the handlers of
 `App`, run one after another from the initial state, and the facts that
 hold in every state a session can reach. The central one is that the
 job a trip delivers is never in the pool `handleFinishTrip` searches, so
 finishing a trip never pays.
 */
module Session {
  import opened Options
  import opened Types
  import opened Constants
  import opened Seqs
  import opened GameLogic
  import opened App
  import opened Bank
  import opened Dashboard
  import opened JobBoard

  /**
   What the player can do. `Buy` is the dealership's purchase, `Drive` one
   firing of the driving interval, `Borrow` the bank's offer button and
   `Select` the fleet screen's selection; the ids are the fresh ids the
   source draws at random.
   */
  datatype Command =
    | Buy(modelId: string, isUsed: bool, financed: bool, truckId: string, loanId: string)
    | Accept(jobId: string)
    | Start
    | Drive
    | Finish
    | Upgrade(target: LicenseCategory)
    | Borrow(offer: nat, loanId: string)
    | Select(truckId: string)

  function TruckIds(trucks: seq<TruckInstance>): (r: seq<string>)
    ensures |r| == |trucks| && forall i | 0 <= i < |trucks| :: r[i] == trucks[i].id
  {
    seq(|trucks|, i requires 0 <= i < |trucks| => trucks[i].id)
  }

  /** The ids the fleet screen lists: the trucks owned by the player. */
  function OwnedTruckIds(trucks: seq<TruckInstance>): seq<string>
  {
    TruckIds(Filter(trucks, (t: TruckInstance) => t.ownerId == PlayerOwner))
  }

  /**
   One command. A bank offer outside the table and a selection of a truck
   the fleet screen does not list have no button and change nothing.
   */
  function Step(s: GameState, c: Command): (r: GameState)
    ensures c.Borrow? && c.offer >= |Offers| ==> r == s
    ensures c.Borrow? && c.offer < |Offers| ==> r == AcceptOffer(s, c.offer, c.loanId)
    ensures c.Select? ==> (r == if c.truckId in OwnedTruckIds(s.trucks) then SelectTruck(s, c.truckId) else s)
    ensures c.Select? && Invariant(s) ==> (r == if c.truckId in TruckIds(s.trucks) then SelectTruck(s, c.truckId) else s)
  {
    match c
    case Buy(modelId, isUsed, financed, truckId, loanId) => BuyTruck(s, modelId, isUsed, financed, truckId, loanId)
    case Accept(jobId) => AcceptJob(s, jobId)
    case Start => StartTrip(s)
    case Drive => Tick(s)
    case Finish => FinishTrip(s)
    case Upgrade(target) => UpgradeLicense(s, target)
    case Borrow(offer, loanId) => if offer < |Offers| then AcceptOffer(s, offer, loanId) else s
    case Select(truckId) => if truckId in OwnedTruckIds(s.trucks) then SelectTruck(s, truckId) else s
  }

  function Run(s: GameState, cs: seq<Command>): GameState
    decreases |cs|
  {
    if |cs| == 0 then s else Run(Step(s, cs[0]), cs[1..])
  }

  /** The active job, once accepted, is no longer in the pool. */
  predicate ActiveJobGone(s: GameState)
  {
    s.player.activeJobId.Some? ==>
      forall i | 0 <= i < |s.availableJobs| :: s.availableJobs[i].id != s.player.activeJobId.value
  }

  /** Every loan is as `createLoan` made it, owing at least its non-negative principal. */
  predicate LoansFresh(loans: seq<Loan>)
  {
    forall i | 0 <= i < |loans| ::
      loans[i].paidMonths == 0 && loans[i].remainingBalance >= loans[i].principal >= 0.0
  }

  /** Every truck belongs to the player, has a catalogue model and a condition within 0 to 100. */
  predicate TrucksOwned(trucks: seq<TruckInstance>)
  {
    forall i | 0 <= i < |trucks| ::
      && trucks[i].ownerId == PlayerOwner
      && GetTruckModel(trucks[i].modelId).Some?
      && 0.0 <= trucks[i].condition <= 100.0
  }

  /** What holds in every state a session reaches. */
  predicate Invariant(s: GameState)
  {
    && s.drivingProgress <= ProgressSteps
    && s.player.money >= 0.0
    && s.player.xp == 0.0 && s.player.level == 1 && s.player.history.deliveries == 0
    && ActiveJobGone(s)
    && s.player.inventoryTruckIds == TruckIds(s.trucks)
    && TrucksOwned(s.trucks)
    && (s.player.currentTruckId.Some? ==> s.player.currentTruckId.value in TruckIds(s.trucks))
    && |s.gameLog| <= LogCap
    && LoansFresh(s.player.loans)
  }

  lemma InitialInvariant(now: real, jobs: seq<Job>)
    ensures Invariant(InitialState(now, jobs))
  {
  }

  /** Under the invariant, the finish handler always takes its reset branch. */
  lemma FinishResets(s: GameState)
    requires Invariant(s)
    ensures FinishedJob(s).None?
    ensures FinishTrip(s) == s.(isDriving := false, drivingProgress := 0)
  {
  }

  lemma BuyPreserves(s: GameState, modelId: string, isUsed: bool, financed: bool, truckId: string, loanId: string)
    requires Invariant(s)
    ensures Invariant(BuyTruck(s, modelId, isUsed, financed, truckId, loanId))
  {
    if CanBuy(s, modelId, isUsed, financed) {
      BoughtPreserves(s, modelId, isUsed, financed, truckId, loanId);
    }
  }

  /** A purchase that goes through keeps the invariant. */
  lemma BoughtPreserves(s: GameState, modelId: string, isUsed: bool, financed: bool, truckId: string, loanId: string)
    requires Invariant(s) && CanBuy(s, modelId, isUsed, financed)
    ensures Invariant(BuyTruck(s, modelId, isUsed, financed, truckId, loanId))
  {
    BoughtFleet(s, modelId, isUsed, financed, truckId, loanId);
    BoughtLoans(s, modelId, isUsed, financed, truckId, loanId);
  }

  lemma BoughtFleet(s: GameState, modelId: string, isUsed: bool, financed: bool, truckId: string, loanId: string)
    requires Invariant(s) && CanBuy(s, modelId, isUsed, financed)
    ensures var r := BuyTruck(s, modelId, isUsed, financed, truckId, loanId);
      && r.player.inventoryTruckIds == TruckIds(r.trucks)
      && TrucksOwned(r.trucks)
      && (r.player.currentTruckId.Some? ==> r.player.currentTruckId.value in TruckIds(r.trucks))
  {
    var r := BuyTruck(s, modelId, isUsed, financed, truckId, loanId);
    var t := NewTruck(truckId, modelId, isUsed, PurchasePrice(GetTruckModel(modelId).value, isUsed));
    assert r.trucks == s.trucks + [t];
    assert TruckIds(r.trucks) == TruckIds(s.trucks) + [truckId];
  }

  lemma BoughtLoans(s: GameState, modelId: string, isUsed: bool, financed: bool, truckId: string, loanId: string)
    requires Invariant(s) && CanBuy(s, modelId, isUsed, financed)
    ensures LoansFresh(BuyTruck(s, modelId, isUsed, financed, truckId, loanId).player.loans)
  {
    var r := BuyTruck(s, modelId, isUsed, financed, truckId, loanId);
    TruckModelsPerTier();
    if financed {
      var l := r.player.loans[|s.player.loans|];
      assert l.paidMonths == 0 && l.remainingBalance >= l.principal >= 0.0;
    }
  }

  lemma AcceptPreserves(s: GameState, jobId: string)
    requires Invariant(s)
    ensures Invariant(AcceptJob(s, jobId))
  {
  }

  lemma BorrowPreserves(s: GameState, offer: nat, loanId: string)
    requires Invariant(s) && offer < |Offers|
    ensures Invariant(AcceptOffer(s, offer, loanId))
  {
    var r := AcceptOffer(s, offer, loanId);
    assert r.player.loans[..|s.player.loans|] == s.player.loans;
    assert forall i | 0 <= i < |s.player.loans| :: r.player.loans[i] == s.player.loans[i];
  }

  lemma SelectPreserves(s: GameState, truckId: string)
    requires Invariant(s) && truckId in OwnedTruckIds(s.trucks)
    ensures Invariant(SelectTruck(s, truckId))
  {
    assert Filter(s.trucks, (t: TruckInstance) => t.ownerId == PlayerOwner) == s.trucks;
  }

  /** Every command keeps the invariant. */
  lemma StepPreserves(s: GameState, c: Command)
    requires Invariant(s)
    ensures Invariant(Step(s, c))
  {
    match c
    case Buy(modelId, isUsed, financed, truckId, loanId) => BuyPreserves(s, modelId, isUsed, financed, truckId, loanId);
    case Accept(jobId) => AcceptPreserves(s, jobId);
    case Start =>
    case Drive =>
    case Finish => FinishResets(s);
    case Upgrade(target) =>
    case Borrow(offer, loanId) => if offer < |Offers| { BorrowPreserves(s, offer, loanId); }
    case Select(truckId) => if truckId in OwnedTruckIds(s.trucks) { SelectPreserves(s, truckId); }
  }

  lemma {:induction false} RunPreserves(s: GameState, cs: seq<Command>)
    requires Invariant(s)
    ensures Invariant(Run(s, cs))
    decreases |cs|
  {
    if |cs| > 0 {
      StepPreserves(s, cs[0]);
      RunPreserves(Step(s, cs[0]), cs[1..]);
    }
  }

  /**
   Whatever the player does from the start, a finished trip pays nothing,
   grants no xp and counts no delivery: the player stays at level 1 with
   no deliveries, and finishing only stops the truck.
   */
  lemma FinishNeverPays(now: real, jobs: seq<Job>, cs: seq<Command>)
    ensures var s := Run(InitialState(now, jobs), cs);
      && FinishTrip(s) == s.(isDriving := false, drivingProgress := 0)
      && s.player.xp == 0.0 && s.player.level == 1 && s.player.history.deliveries == 0
  {
    InitialInvariant(now, jobs);
    RunPreserves(InitialState(now, jobs), cs);
    FinishResets(Run(InitialState(now, jobs), cs));
  }

  /** In a reachable state no job board button reads ACTIVE. */
  lemma ActiveLabelNeverShown(s: GameState)
    requires Invariant(s)
    ensures forall i | 0 <= i < |s.availableJobs| ::
      ButtonLabel(s.player.activeJobId, s.player.license, s.availableJobs[i]) != ActiveLabel
  {
  }

  /** In a reachable state the dashboard always shows the placeholder for an active job. */
  lemma DashboardShowsPlaceholder(s: GameState)
    requires Invariant(s) && Truthy(s.player.activeJobId)
    ensures ActiveJobView(s) == Some(Placeholder)
  {
  }

  /** In a reachable state a selected truck always resolves to a catalogue model. */
  lemma SelectedTruckResolves(s: GameState)
    requires Invariant(s) && s.player.currentTruckId.Some?
    ensures CurrentTruckModel(s).Some?
  {
    var t := CurrentTruckInstance(s);
    assert t.Some?;
    var i :| 0 <= i < |s.trucks| && s.trucks[i] == t.value;
  }

  /** In a reachable state the debt shown is at least the sum borrowed. */
  lemma DebtAtLeastBorrowed(s: GameState)
    requires Invariant(s)
    ensures TotalDebt(s.player.loans) >= PrincipalTotal(s.player.loans)
  {
    DebtCoversPrincipal(s.player.loans);
  }

  /**
   The delivery message skips the log cap: were the reward branch taken
   on a full log, the log would grow past 50 entries.
   */
  lemma FinishBypassesLogCap(s: GameState)
    requires |s.gameLog| == LogCap && FinishedJob(s).Some?
    ensures |FinishTrip(s).gameLog| == LogCap + 1
  {
  }
}

=== FILE: types.dfy ===
/** The optional value used for the source's nullable fields and failed lookups. */
module Options {

  datatype Option<+T> = None | Some(value: T)
}

/**
 The records and enumerations of the game (types.ts). Numbers the source
 keeps as JavaScript doubles are `real` here, counts are `nat`, and the
 driving progress is an integer number of 0.05 steps.
 */
module Types {
  import opened Options

  /** Licence tiers, in declaration order. The source compares their string values. */
  datatype LicenseCategory = B | C | D | E

  /** `Object.values(LicenseCategory)`: the tiers in declaration order. */
  const Categories: seq<LicenseCategory> := [B, C, D, E]

  /** The string value of each tier. */
  function Code(c: LicenseCategory): string
  {
    match c
    case B => "B"
    case C => "C"
    case D => "D"
    case E => "E"
  }

  /** The position of a tier in declaration order. */
  function Rank(c: LicenseCategory): (r: nat)
    ensures r < |Categories| && Categories[r] == c
  {
    match c
    case B => 0
    case C => 1
    case D => 2
    case E => 3
  }

  /** JavaScript `<` on two strings: lexicographic order on code units. */
  predicate StringLess(a: string, b: string)
    decreases |a|
  {
    if |b| == 0 then false
    else if |a| == 0 then true
    else if a[0] != b[0] then a[0] < b[0]
    else StringLess(a[1..], b[1..])
  }

  /** `a < b` on two tiers, evaluated on their string values as the source does. */
  function Below(a: LicenseCategory, b: LicenseCategory): (r: bool)
    ensures r <==> Rank(a) < Rank(b)
  {
    SingleCharLess(Code(a), Code(b));
    StringLess(Code(a), Code(b))
  }

  /** On one-character strings `<` compares the two characters. */
  lemma SingleCharLess(a: string, b: string)
    requires |a| == 1 && |b| == 1
    ensures StringLess(a, b) <==> a[0] < b[0]
  {
    if a[0] == b[0] {
      assert a[1..] == [] && b[1..] == [];
    }
  }

  /** `a >= b` on two tiers: for strings JavaScript defines it as `!(a < b)`. */
  function AtLeast(a: LicenseCategory, b: LicenseCategory): (r: bool)
    ensures r <==> Rank(a) >= Rank(b)
  {
    !Below(a, b)
  }

  /** The comparison on tier strings is a strict total order that follows declaration order. */
  lemma BelowIsStrictTotalOrder(a: LicenseCategory, b: LicenseCategory, c: LicenseCategory)
    ensures !Below(a, a)
    ensures Below(a, b) ==> !Below(b, a)
    ensures Below(a, b) && Below(b, c) ==> Below(a, c)
    ensures a != b ==> Below(a, b) || Below(b, a)
    ensures forall i, j | 0 <= i < j < |Categories| :: Below(Categories[i], Categories[j])
  {
  }

  /** JavaScript truthiness of a nullable id: `null` and the empty string are falsy. */
  predicate Truthy(id: Option<string>)
  {
    id.Some? && id.value != ""
  }

  datatype City = City(id: string, name: string, x: real, y: real)

  datatype TruckModel = TruckModel(
    id: string,
    brand: string,
    model: string,
    year: int,
    hp: int,
    consumption: real,   // litres per 100 km
    capacity: int,       // kg
    category: LicenseCategory,
    basePrice: real)

  datatype TruckInstance = TruckInstance(
    id: string,
    modelId: string,
    condition: real,     // documented as 0..100
    mileage: real,
    fuel: real,
    ownerId: string,     // "player" or a company id
    purchasePrice: real)

  /** The type admits `Med`, which the generator never produces. */
  datatype Urgency = Low | Med | High

  /** The source's `Job.type`; only `Common` is ever produced. */
  datatype JobKind = Common | Fragile | Dangerous | Special

  datatype Job = Job(
    id: string,
    cargo: string,
    weight: int,
    from: string,
    to: string,
    payout: real,
    urgency: Urgency,
    kind: JobKind,
    requiredLicense: LicenseCategory,
    distance: real,
    deadline: real)

  datatype Strategy = Aggressive | Balanced | Conservative

  datatype Company = Company(
    id: string,
    name: string,
    reputation: real,
    balance: real,
    strategy: Strategy,
    fleetIds: seq<string>)

  /** `interestRate` is the monthly decimal rate. */
  datatype Loan = Loan(
    id: string,
    principal: real,
    remainingBalance: real,
    interestRate: real,
    monthlyPayment: real,
    termMonths: nat,
    paidMonths: nat)

  datatype History = History(deliveries: nat, fines: nat, accidents: nat)

  datatype PlayerProfile = PlayerProfile(
    name: string,
    level: int,
    xp: real,
    reputation: real,
    money: real,
    license: LicenseCategory,
    history: History,
    currentTruckId: Option<string>,
    activeJobId: Option<string>,
    inventoryTruckIds: seq<string>,
    loans: seq<Loan>)

  datatype Weather = Sunny | Rainy | Foggy

  /**
   The events the game writes to its log. The source stores formatted
   strings; the formatting of money is not part of this model, so each
   entry keeps the values its message is built from.
   */
  datatype LogEntry =
    | Welcome
    | NotEnoughMoney(downPayment: real)
    | Financed(brand: string, model: string)
    | Bought(brand: string, model: string)
    | Accepted(cargo: string, to: string)
    | DeliveryComplete(payout: real)
    | LicenseUpgraded(target: LicenseCategory)
    | LoanAccepted(amount: real)

  /** Number of 0.05 steps in a full trip: progress 1.0 is 20 steps. */
  const ProgressSteps: nat := 20

  /** `drivingProgress` counts 0.05 steps, so progress p in the source is p / 20 here. */
  datatype GameState = GameState(
    player: PlayerProfile,
    trucks: seq<TruckInstance>,
    companies: seq<Company>,
    availableJobs: seq<Job>,
    currentTime: real,
    weather: Weather,
    isDriving: bool,
    drivingProgress: nat,
    gameLog: seq<LogEntry>)
}
